=== FILE: README.md ===
# newspaper-scraper: indexing and scraping bookkeeping in Dafny

newspaper-scraper collects newspaper articles in two stages.

- **Indexing** walks a range of days, asks a site adapter for the URLs published on each day, and appends the URLs not yet known to an in-memory article table keyed by URL.
- **Scraping** then visits the rows that still need work:
  - a public pass fetches every row whose `Public` flag is still null and records the flag;
  - a private pass logs in and fetches the premium rows whose HTML has not been scraped, retrying the whole pass after an exception.

A store loads and saves the table with an interval-gated write. While it writes, SIGINT is ignored. This project models that bookkeeping and proves what it does to the table.

| module (file) | models |
|---|---|
| `Urls` (urls.dfy) | `url.split('?')[0]` |
| `Frame` (frame.dfy) | cells, rows and the URL-indexed table; `df.loc[url, col] = v` and `df.update(row)` |
| `Naming` (naming.dfy) | the `newspaper_id` derived from a class name |
| `FlattenDict` (flatten.dfy) | `flatten_dict`, as a recursive function and as the loop-and-recursion method proved equal to it |
| `Sueddeutsche` (sueddeutsche.dfy) | the first-of-month guard and URL post-processing of `_get_articles_by_date`; the redirect-based premium classification of `_soup_get_html` |
| `RawHtml` (rawhtml.dfy) | the raw-HTML relation `tblRawHTML` and its INSERT/UPDATE methods |
| `Store` (database.dfy) | `newspaper_scraper/database.py`: load with `Public` normalisation, table creation, the gated save of a serialised copy, `__exit__`, the `delay_interrupt` bracket |
| `Indexing` (indexing.dfy) | the day selection and one day's merge of `index_published_articles`, as functions |
| `Scraping` (scraper.dfy) | `newspaper_scraper/scraper.py`: the public pass, the private pass and its retry loop as folds, and the `Scraper` class whose methods are proved equal to them |
| `Legacy` (spiegel.dfy) | the older `newspaper-scraper/spiegel.py` store and scraper, saving every 50 items and after the last |

Inputs from outside the program are parameters:

- the clock, as `now` in seconds;
- the site adapters, as functions;
- the stored tables of the database file, given to the constructors.

Days are integer day numbers and timestamps are integer seconds in UTC.

Each driver method keeps a narrow frame: it changes the articles, the raw-HTML relation, the file and the store's write log, and it leaves the SIGINT handler as it found it. Where it does no work, raises before its first save, or meets a closed save gate, the file and the write log stay as they were. It is proved equal to a fold over the rows it visits. The lemmas state what the folds do:

- only candidates change;
- every candidate ends up visited;
- nothing is added;
- a finished pass leaves no candidate behind.

The newer `database.py` defines no `raw_html_add_index` or `raw_html_add_blop`, although `scraper.py` calls both. The rest of the model therefore pairs the newer scraper with a store that has the raw-HTML relation of `spiegel.py` (see Findings). As written, the store never advances `_last_save`. Its interval gate therefore only skips a save requested before the moment of construction. This is modelled as written.

## Model

| member | source | states |
|---|---|---|
| `Urls.StripQuery` | newspaper_scraper/scraper.py:64 | the result is the prefix of the URL before its first `?`: it has no `?`, it is a prefix, the next character is `?`, and a URL without `?` is unchanged |
| `Urls.StripQueryIdempotent` | newspaper_scraper/scraper.py:64 | stripping twice equals stripping once |
| `Urls.StripAll` | newspaper_scraper/sites/sueddeutsche.py:91 | the list comprehension keeps the length and strips each element in place |
| `Frame.DayOf` | newspaper_scraper/scraper.py:45 | a timestamp lies between midnight of its day and midnight of the next |
| `Frame.DayOfMidnight` | newspaper_scraper/sites/sueddeutsche.py:103 | midnight of a day falls on that day |
| `Frame.EmptyTable` | newspaper_scraper/database.py:64-95 | a created table has the declared columns and no rows |
| `Frame.SetCell` | newspaper_scraper/scraper.py:126 | `.loc[url, col] = v` sets that one cell, adds the column, adds the row only for an unknown URL, and keeps every other row |
| `Frame.Update` | newspaper_scraper/scraper.py:116 | `update` overwrites a row's cells with the non-null values of columns the table has, ignores other columns, and changes no other row, no index entry and no column |
| `Naming.SnakeTail` | newspaper_scraper/scraper.py:32 | the tail has no upper-case letter and grows by one `_` per upper-case letter |
| `Naming.NewspaperId` | newspaper_scraper/scraper.py:32 | the id has no upper-case letter and is one character longer per upper-case letter after the first position |
| `Naming.CamelSnakeTail` | newspaper_scraper/scraper.py:32 | re-capitalising after each `_` undoes the snake-casing of a tail without `_` |
| `Naming.NewspaperIdRoundTrip` | newspaper_scraper/scraper.py:32 | a class name without `_` that does not start lower-case is recovered from its id, so such names get distinct ids |
| `Naming.NewspaperIdExample` | newspaper_scraper/scraper.py:32 | `DeSpiegel` becomes `de_spiegel` |
| `FlattenDict.Flatten` | newspaper_scraper/utils/utils.py:33-44 | no value of the flat dictionary is a dictionary |
| `FlattenDict.Contribution` | newspaper_scraper/utils/utils.py:39-43 | one entry contributes only leaves |
| `FlattenDict.Items` | newspaper_scraper/utils/utils.py:38 | `d.items()` lists each entry's key and value in order |
| `FlattenDict.DictOfAppend` | newspaper_scraper/utils/utils.py:44 | `dict` of concatenated pairs lets the later pairs override the earlier ones |
| `FlattenDict.FlattenSnoc` | newspaper_scraper/utils/utils.py:38-43 | the last entry's contribution overrides what the entries before it give |
| `FlattenDict.FlattenAppend` | newspaper_scraper/utils/utils.py:37-44 | flattening concatenated entries is the union in which the later entries win |
| `FlattenDict.FlattenEmptyNested` | newspaper_scraper/utils/utils.py:40-41 | an entry holding an empty dictionary contributes no key |
| `FlattenDict.FlattenFlat` | newspaper_scraper/utils/utils.py:38-44 | a dictionary with no nested dictionary flattens to itself, top-level keys kept as they are |
| `FlattenDict.FlattenComplete` | newspaper_scraper/utils/utils.py:40-43 | every leaf appears under its key path joined by `sep` |
| `FlattenDict.FlattenSound` | newspaper_scraper/utils/utils.py:40-43 | every key of the result is the joined path of a leaf and holds that leaf's value |
| `FlattenDict.ExtendItems` | newspaper_scraper/utils/utils.py:41 | extending `items` by a dictionary's pairs makes `dict(items)` the old one overridden by that dictionary |
| `FlattenDict.FlattenLoop` | newspaper_scraper/utils/utils.py:33-44 | the loop with its recursive calls returns exactly the flattening |
| `Sueddeutsche.AdvertorialWildcard` | newspaper_scraper/sites/sueddeutsche.py:100 | the unescaped `.` of the pattern also matches URLs whose host has other characters in place of the dots |
| `Sueddeutsche.AdvertorialHostMatches` | newspaper_scraper/sites/sueddeutsche.py:100 | the advertorial host matches |
| `Sueddeutsche.SearchLiteral` | newspaper_scraper/sites/sueddeutsche.py:100 | `Search` (`re.search`) with a pattern without `.` succeeds exactly when the pattern occurs in the text |
| `Sueddeutsche.ArticleUrlKept` | newspaper_scraper/sites/sueddeutsche.py:100 | an ordinary article URL does not match |
| `Sueddeutsche.Dedupe` | newspaper_scraper/sites/sueddeutsche.py:95 | the result is duplicate-free, holds exactly the input's URLs and is no longer; with the model's first-occurrence order, it is the input when that was duplicate-free |
| `Sueddeutsche.DedupeShrinksIffDuplicates` | newspaper_scraper/sites/sueddeutsche.py:94-96 | deduplication shortens the list if and only if it had a duplicate |
| `Sueddeutsche.WarnsIffDuplicates` | newspaper_scraper/sites/sueddeutsche.py:94-97 | the warning is logged if and only if a stripped URL occurred twice |
| `Sueddeutsche.DropAdvertorials` | newspaper_scraper/sites/sueddeutsche.py:100 | keeps exactly the URLs that do not match the pattern and keeps distinctness |
| `Sueddeutsche.Listed` | newspaper_scraper/sites/sueddeutsche.py:90-100 | the listed URLs are duplicate-free, carry no `?`, do not match the pattern, and are exactly the stripped URLs that do not match |
| `Sueddeutsche.ArticlesByDate` | newspaper_scraper/sites/sueddeutsche.py:53-105 | any day other than the first of the month gives `([], [])`; an aborted pagination gives a bare `[]`; otherwise the URLs are as `Listed` says, with exactly one date per URL, each midnight UTC of the day |
| `Sueddeutsche.SoupGetHtml` | newspaper_scraper/sites/sueddeutsche.py:118-128 | no or falsy response gives `(None, False)`; otherwise the text, public if and only if the effective URL lacks `reduced=true` |
| `Sueddeutsche.ErrorStatusFalsy` | newspaper_scraper/sites/sueddeutsche.py:121 | `Truthy`: a response is truthy exactly when its status is below 400; a 4xx or 5xx response yields `(None, False)`, a truthy one its text |
| `Sueddeutsche.RedirectDecides` | newspaper_scraper/sites/sueddeutsche.py:121-128 | a redirect to a `reduced=true` URL marks the article premium, and a 404 gives `(None, False)` |
| `RawHtml.InsertAll` | newspaper-scraper/spiegel.py:55-57 | INSERTs keep every existing row, add only NULL rows for given URLs, and fail only with IntegrityError |
| `RawHtml.InsertAllSucceeds` | newspaper-scraper/spiegel.py:55-57 | all INSERTs succeed if and only if no URL is present or repeated, and then exactly one NULL row per URL is added |
| `RawHtml.WithBlob` | newspaper-scraper/spiegel.py:59-60 | the UPDATE changes only the given URL's page and adds no row |
| `RawHtml.RawHtmlTable.constructor` | newspaper-scraper/spiegel.py:49 | the relation is the stored one |
| `RawHtml.RawHtmlTable.AddIndex` | newspaper-scraper/spiegel.py:55-57 | the INSERT loop leaves the relation and error `InsertAll` gives |
| `RawHtml.RawHtmlTable.AddBlob` | newspaper-scraper/spiegel.py:59-60 | the relation becomes `WithBlob` of the old one |
| `Store.NormalizePublic` | newspaper_scraper/database.py:54-55 | `1`, `True` and `'1'` become True; `0`, `False` and `'0'` become False; every other value, null included, is kept |
| `Store.NormalizePublicIdempotent` | newspaper_scraper/database.py:54-55 | normalising a normalised value changes nothing |
| `Store.EqualsIntCells` | newspaper_scraper/database.py:54-55 | `EqualsInt`: a cell equals 1 exactly when it is 1 or True, and 0 exactly when it is 0 or False |
| `Store.NormalizeTable` | newspaper_scraper/database.py:54-55 | loading changes only `Public` cells, each by `NormalizePublic`; index, rows and columns are kept |
| `Store.ListInMembers` | newspaper_scraper/database.py:117 | the row-by-row list test holds if and only if some listed row has a list in the column |
| `Store.ListColumnsMembers` | newspaper_scraper/database.py:116-118 | the stringified columns are exactly the table's columns with a list in some row |
| `Store.StringifyRow` | newspaper_scraper/database.py:118 | a stringified row has the row's columns plus the stringified ones |
| `Store.SerializedRows` | newspaper_scraper/database.py:113-121 | each row of the written copy is the original row stringified in the list columns and `PubDateIndexPage` |
| `Store.SerializedCell` | newspaper_scraper/database.py:113-121 | no written cell is a list, `PubDateIndexPage` is text, and a cell outside those columns is copied |
| `Store.SerializedShape` | newspaper_scraper/database.py:113-121 | `Serialized`, the copy `save_articles` writes, is well formed with the same index and rows, holds no list, has `PubDateIndexPage` as text in every row, and keeps every other cell |
| `Store.StringifyStep` | newspaper_scraper/database.py:118 | stringifying one more column in place equals stringifying the enlarged column set |
| `Store.StringifyColumn` | newspaper_scraper/database.py:118 | `apply(str)` keeps the rows of the copy |
| `Store.ColumnStep` | newspaper_scraper/database.py:116-118 | within the column loop, the copy has a list in a column if and only if the original does, and one pass stringifies one more column |
| `Store.StringifyAgain` | newspaper_scraper/database.py:121 | stringifying a column that is already text changes nothing |
| `Store.PubDateRowStep` | newspaper_scraper/database.py:121 | stringifying `PubDateIndexPage` after the list columns stringifies both, whether or not it was a list column |
| `Store.PubDateStep` | newspaper_scraper/database.py:121 | the last step turns the loop's rows into the rows of the written copy |
| `Store.SerializeForSave` | newspaper_scraper/database.py:113-121 | the column loop over the copy produces exactly the serialised table |
| `Store.Database.SwapHandler` | newspaper_scraper/database.py:23-25 | `signal.signal` installs the handler and returns the previous one |
| `Store.Database.constructor` | newspaper_scraper/database.py:35-44 | the store is open with SIGINT restored and nothing written; the last save lies one interval before the moment of construction; the articles are the normalised stored table, or the empty declared table |
| `Store.Database.LoadTables` | newspaper_scraper/database.py:46-61 | a stored table is loaded normalised; without one, the table is created and loaded |
| `Store.Database.CreateTables` | newspaper_scraper/database.py:63-97 | the file gains the declared table and the articles become it, empty |
| `Store.Database.SaveArticles` | newspaper_scraper/database.py:105-123 | within the interval nothing is written; otherwise the file holds the serialised copy of the unchanged articles, written with SIGINT ignored, and the previous handler is reinstated |
| `Store.Database.CloseCursor` | newspaper_scraper/database.py:103 | closing the cursor raises ProgrammingError exactly when its connection is closed, and then leaves the cursor open |
| `Store.Database.Exit` | newspaper_scraper/database.py:99-103 | saves as `SaveArticles` does and closes the connection; closing the cursor then raises ProgrammingError, so SIGINT is left ignored and the previous handler is never reinstated |
| `Store.SaveNeverSkipped` | newspaper_scraper/database.py:40-41 | for a store in its valid state, whose last save never moves from one interval before its construction, the gate is open at every time from construction on |
| `Indexing.DayRange` | newspaper_scraper/scraper.py:44 | the range holds every day from the first to the last, in order |
| `Indexing.KeepDays` | newspaper_scraper/scraper.py:44-46 | a day is kept if and only if it is listed and, when skipping, no stored date falls on it; without skipping all days are kept |
| `Indexing.DaysToIndexSpec` | newspaper_scraper/scraper.py:44-46 | `DaysToIndex`: a day is indexed if and only if it lies in the inclusive range and, when skipping, is not `Covered` (some stored `PubDateIndexPage` falls on it); the days are increasing |
| `Indexing.MergeDayKeepsCovered` | newspaper_scraper/scraper.py:44-46 | a merge never uncovers a day, so with `skip_existing` the days still to index only shrink |
| `Indexing.KeepDaysIncreasing` | newspaper_scraper/scraper.py:44-46 | filtering keeps the range order |
| `Indexing.IndexRowShape` | newspaper_scraper/scraper.py:69-72 | a new row holds this newspaper, the publication date and the indexing time |
| `Indexing.NewUrls` | newspaper_scraper/scraper.py:74-77 | the new URLs are exactly the batch URLs not in the table |
| `Indexing.AppendBatch` | newspaper_scraper/scraper.py:79 | appending keeps the columns |
| `Indexing.AppendBatchOrder` | newspaper_scraper/scraper.py:79 | the index grows by the batch's unknown URLs, in batch order |
| `Indexing.AppendBatchRows` | newspaper_scraper/scraper.py:79 | existing rows are untouched, every batch URL is present, and each new row is the batch row of its URL |
| `Indexing.AppendBatchValid` | newspaper_scraper/scraper.py:79 | appending keeps the table well formed |
| `Indexing.IndexRows` | newspaper_scraper/scraper.py:69-72 | the frame has one row per date, each this newspaper's with that date |
| `Indexing.MergeDayProperties` | newspaper_scraper/scraper.py:69-79 | `MergeDay`: a merge never modifies or re-appends an existing row; the index grows exactly by the new URLs; each new row belongs to this newspaper and has the indexing time |
| `Indexing.MergeDayKnown` | newspaper_scraper/scraper.py:74-79 | a batch of known URLs changes no row |
| `Indexing.MergeDayIdempotent` | newspaper_scraper/scraper.py:74-79 | merging the same batch again adds nothing |
| `Indexing.NewUrlsNone` | newspaper_scraper/scraper.py:74 | a batch of known URLs has no new URL |
| `Indexing.ExtendsTransitive` | newspaper_scraper/scraper.py:57-84 | "only appends" composes across days |
| `Indexing.IndexDay` | newspaper_scraper/scraper.py:61-84 | a day fails, leaving the table as it was, exactly when a date is not a timestamp, the lists differ in length, or an INSERT would repeat a URL |
| `Indexing.IndexDayEffect` | newspaper_scraper/scraper.py:73-79 | the raw-HTML relation holds the INSERTs made; on success it gains exactly the stripped URLs the table lacked, each with a NULL page, and the table is the merge of the day |
| `Indexing.IndexDayExtends` | newspaper_scraper/scraper.py:61-79 | a day keeps every row and the index prefix, and adds only this newspaper's rows under URLs without `?` |
| `Indexing.IndexDays` | newspaper_scraper/scraper.py:57-84 | the day loop keeps the table well formed |
| `Indexing.IndexDaysNext` | newspaper_scraper/scraper.py:57-84 | the day loop goes on from the state one successful day leaves, or stops at the day that fails |
| `Indexing.IndexDaysOnlyAppends` | newspaper_scraper/scraper.py:57-84 | over all days, indexing only appends rows of this newspaper under URLs without `?` |
| `Indexing.IndexDayAsWritten` | newspaper_scraper/scraper.py:61-79 | against a store without `raw_html_add_index`, a day fails with AssertionError for a non-timestamp date, ValueError for unequal lengths, and AttributeError otherwise |
| `Indexing.IndexDayAsWrittenNeverMerges` | newspaper_scraper/scraper.py:77 | as written, every day fails; for a valid batch the corrected day succeeds with the merge |
| `Scraping.ParseArticle` | newspaper_scraper/scraper.py:190-212 | the parsed row touches no bookkeeping column; with exactly one author it holds the extracted fields and the parse time, otherwise it is the empty fallback |
| `Scraping.ParsedDescriptionDropped` | newspaper_scraper/scraper.py:116 | `Description` and `DateParsedHTML` are not table columns, so `update` never stores them |
| `Scraping.UpdateKeepsOthers` | newspaper_scraper/scraper.py:116 | `update` changes no cell of a column the parsed row lacks |
| `Scraping.Select` | newspaper_scraper/scraper.py:90-91 | the selected URLs are exactly the `IsCandidate` rows among the keys |
| `Scraping.ToScrapeSpec` | newspaper_scraper/scraper.py:139-143 | `to_scrape` of a well-formed table holds exactly the rows `IsCandidate` accepts |
| `Scraping.NoCandidates` | newspaper_scraper/scraper.py:90-95 | without a candidate row, the candidate list is empty |
| `Scraping.SelectNone` | newspaper_scraper/scraper.py:139-143 | filtering keys without a candidate gives nothing |
| `Scraping.PublicStep` | newspaper_scraper/scraper.py:106-126 | one visit keeps the table well formed |
| `Scraping.PublicFold` | newspaper_scraper/scraper.py:103-128 | the public loop keeps the table well formed |
| `Scraping.PublicFoldNext` | newspaper_scraper/scraper.py:103-128 | the public loop continues from the state one visit leaves |
| `Scraping.Merged` | newspaper_scraper/scraper.py:116 | a cell takes the parsed value when that value is non-null and in a table column, and keeps the old cell otherwise |
| `Scraping.ScrapedRowEffect` | newspaper_scraper/scraper.py:115-117 | after `update` and the `DateScrapedHTML` stamp, every other cell of the row is the merged cell, and `Public` and the newspaper are kept |
| `Scraping.PublicVisitedTwice` | newspaper_scraper/scraper.py:103-126 | visiting a row a second time changes nothing more |
| `Scraping.PublicStepRow` | newspaper_scraper/scraper.py:106-126 | the visited row: `Public` is the fetched flag; a parsed public page has its fields merged and `DateScrapedHTML` stamped; any other visit changes no cell but `Public` |
| `Scraping.PublicStepEffect` | newspaper_scraper/scraper.py:106-126 | a visit changes only its own row, as `PublicStepRow` says, adds no row and no column other than `Public` and `DateScrapedHTML` |
| `Scraping.PublicFoldEffect` | newspaper_scraper/scraper.py:103-128 | the pass adds no row, changes no row outside its list, and leaves every listed row visited: flag set, parsed fields merged and stamped for a parsed public page, every other cell unchanged otherwise |
| `Scraping.PublicFoldBlobs` | newspaper_scraper/scraper.py:112-113 | the raw-HTML relation gains no row; without parsing each visited public URL's row holds its page; with parsing it is untouched |
| `Scraping.PublicPassDrains` | newspaper_scraper/scraper.py:90-128 | after the public pass no row of this newspaper has a null `Public` |
| `Scraping.PrivateStep` | newspaper_scraper/scraper.py:159-164 | one private visit keeps the table well formed |
| `Scraping.PrivateFold` | newspaper_scraper/scraper.py:153-166 | the private loop keeps the table well formed, and its only error is the adapter's |
| `Scraping.PrivateFoldNext` | newspaper_scraper/scraper.py:153-166 | the private loop stops at a fetch that raises, or continues from the state one visit leaves |
| `Scraping.PrivateVisitedTwice` | newspaper_scraper/scraper.py:153-166 | visiting a row a second time changes nothing more |
| `Scraping.PrivateStepEffect` | newspaper_scraper/scraper.py:159-164 | a private visit changes only its own row; when parsing, the fields are merged and `DateScrapedHTML` is stamped while `Public` and the newspaper are kept; without parsing the articles are unchanged |
| `Scraping.PrivateFoldEffect` | newspaper_scraper/scraper.py:153-166 | the private loop adds no row, changes no unlisted row, leaves the articles alone without parsing, and, when nothing raised, leaves every listed row merged and stamped |
| `Scraping.PrivateAttempt` | newspaper_scraper/scraper.py:135-166 | missing credentials raise ValueError with nothing changed; with no candidate it returns before logging in, with nothing changed; a raising login changes nothing; otherwise the state is the loop's, and the call is Done exactly when no fetch raised |
| `Scraping.Verdict` | newspaper_scraper/scraper.py:168-178 | the loop retries if and only if the attempt raised and exceptions are caught; otherwise it returns what `_func` gave or re-raises |
| `Scraping.Retry` | newspaper_scraper/scraper.py:168-178 | the retry loop ends other than by running out only when attempts remain, and re-raises only when exceptions are not caught |
| `Scraping.RetryNext` | newspaper_scraper/scraper.py:168-178 | an attempt ends the loop with its verdict, or the loop retries from the state it left |
| `Scraping.MissingCredentials` | newspaper_scraper/scraper.py:136-178 | without a username or password nothing changes: the ValueError escapes, or is retried until the attempts run out |
| `Scraping.PrivateAttemptDrains` | newspaper_scraper/scraper.py:139-166 | a completed parsing attempt leaves no private candidate |
| `Scraping.RetryCompletedDrains` | newspaper_scraper/scraper.py:139-178 | whenever the retried private scrape completes with parsing, no private candidate is left |
| `Scraping.RawOnlyKeepsCandidates` | newspaper_scraper/scraper.py:139-160 | storing raw HTML only never changes the articles, so the same candidates are fetched on every attempt |
| `Scraping.Scraper.constructor` | newspaper_scraper/scraper.py:28-33 | the scraper keeps the credentials and the shared store, and its id is the snake-cased class name |
| `Scraping.Scraper.IndexPublishedArticles` | newspaper_scraper/scraper.py:35-84 | without a start date or without a kept day the articles, the relation, the file and the write log are unchanged and the outcome is nothing to do; otherwise the table and relation are those of the day loop over the kept days, with the first error or completed; past the gate a completed run saved the final articles, and a raised run either did so or wrote nothing; a closed gate writes nothing; the SIGINT handler is kept |
| `Scraping.Scraper.IndexAllDays` | newspaper_scraper/scraper.py:57-84 | the loop leaves the state of `IndexDays`; past the gate it saved the final articles when completed, and on a raise either saved them or wrote nothing at all; a closed gate writes nothing; the SIGINT handler is kept |
| `Scraping.Scraper.IndexNextDay` | newspaper_scraper/scraper.py:57-84 | one turn of the day loop: on a raise the state is what `IndexDays` ends in and nothing was written or merged; otherwise `IndexDays` over the rest gives the same result, and past the gate the day was saved; the SIGINT handler is kept |
| `Scraping.Scraper.IndexOneDay` | newspaper_scraper/scraper.py:61-84 | one day leaves the state `IndexDay` gives; it saves on success and writes nothing when the day raises; the SIGINT handler is kept |
| `Scraping.Scraper.ScrapePublicArticlesRawHtml` | newspaper_scraper/scraper.py:86-128 | the public pass leaves the table and relation of the fold over this newspaper's null-`Public` rows in table order; with no candidate it writes nothing; otherwise, past the gate, the file holds the final articles; the SIGINT handler is kept |
| `Scraping.Scraper.VisitAllPublic` | newspaper_scraper/scraper.py:103-128 | the loop equals the public fold over the list; past the gate the last write holds the final articles, behind a closed gate nothing is written; the SIGINT handler is kept |
| `Scraping.Scraper.VisitPublic` | newspaper_scraper/scraper.py:104-128 | one iteration does what `PublicStep` says and then saves; the SIGINT handler is kept |
| `Scraping.Scraper.PrivateAttemptRun` | newspaper_scraper/scraper.py:135-166 | one call of `_func` leaves the state and result of `PrivateAttempt`; it saves the final articles, past the gate, exactly when credentials, a candidate, a login and a first fetch all succeed, and otherwise changes neither the articles nor the file; the SIGINT handler is kept |
| `Scraping.Scraper.VisitAllPrivate` | newspaper_scraper/scraper.py:153-166 | the loop equals the private fold over the list; when the first fetch succeeds the final articles are saved past the gate, and otherwise neither the articles nor the file change; the SIGINT handler is kept |
| `Scraping.Scraper.VisitPrivate` | newspaper_scraper/scraper.py:156-166 | one iteration does what `PrivateStep` says and then saves; the SIGINT handler is kept |
| `Scraping.Scraper.ScrapePrivateArticlesRawHtml` | newspaper_scraper/scraper.py:130-178 | the retry loop leaves the state and outcome of `Retry`; past the gate the file holds the final articles unless no attempt wrote anything; the SIGINT handler is kept |
| `Legacy.WithScrapedFlag` | newspaper-scraper/spiegel.py:49-50 | every row gains `RawHTMLScraped`, and nothing else changes |
| `Legacy.ScrapedFlagMeaning` | newspaper-scraper/spiegel.py:49-50 | the flag is true if and only if the relation has no NULL page for the URL |
| `Legacy.Database.constructor` | newspaper-scraper/spiegel.py:25-50 | loads both stored tables, or creates empty ones, then derives the flag |
| `Legacy.Database.RawHtmlAddIndex` | newspaper-scraper/spiegel.py:55-57 | one INSERT per URL, as `InsertAll` says |
| `Legacy.Database.RawHtmlAddBlob` | newspaper-scraper/spiegel.py:59-60 | one UPDATE, as `WithBlob` says |
| `Legacy.Database.SaveArticles` | newspaper-scraper/spiegel.py:62-63 | every call writes the articles as they are |
| `Legacy.Database.Exit` | newspaper-scraper/spiegel.py:52-53 | closes the connection without saving |
| `Legacy.SaveCountBefore` | newspaper-scraper/spiegel.py:113-114 | before the last item, one save per full block of 50 |
| `Legacy.SaveCountTotal` | newspaper-scraper/spiegel.py:113-114 | a pass over n items saves once per started block of 50, so the last block is written |
| `Legacy.KeepDays` | newspaper-scraper/spiegel.py:83-84 | a day is kept if and only if no row was indexed on it or skipping is off |
| `Legacy.LegacyRows` | newspaper-scraper/spiegel.py:102 | each URL gets this newspaper and the day |
| `Legacy.MergeProperties` | newspaper-scraper/spiegel.py:102-108 | `Merge`: existing rows are kept, the index grows by the unknown URLs, and each new row is this newspaper's row for the day |
| `Legacy.MergeMarksDay` | newspaper-scraper/spiegel.py:84 | `Indexed` days stay indexed after a merge, and the merged day becomes indexed as soon as one of its URLs was new |
| `Legacy.IndexDay` | newspaper-scraper/spiegel.py:99-108 | a day fails with IntegrityError, the table unchanged, exactly when an INSERT would repeat a URL |
| `Legacy.IndexDayEffect` | newspaper-scraper/spiegel.py:100-108 | `tblRawHTML` holds the INSERTs made; on success it gains exactly the stripped URLs the article table lacked, each with a NULL page, and the article table has the same URLs appended as this newspaper's rows for the day |
| `Legacy.MergeExtends` | newspaper-scraper/spiegel.py:100-108 | merging query-free URLs only appends rows of this newspaper for the day |
| `Legacy.IndexDayExtends` | newspaper-scraper/spiegel.py:99-108 | a day only appends rows of this newspaper for the day under URLs without `?` |
| `Legacy.IndexDays` | newspaper-scraper/spiegel.py:95-108 | the day loop keeps the table well formed |
| `Legacy.IndexDaysNext` | newspaper-scraper/spiegel.py:95-108 | the day loop goes on from the state one successful day leaves, or stops at the day that fails |
| `Legacy.IndexDaysOnlyAppends` | newspaper-scraper/spiegel.py:95-108 | over all days the legacy loop only appends |
| `Legacy.Scraper.constructor` | newspaper-scraper/spiegel.py:72-73 | the id is the snake-cased class name |
| `Legacy.Scraper.SaveIfDue` | newspaper-scraper/spiegel.py:113-114 | saves exactly after a 50th or the last item, counting as `SaveCount` does, and otherwise leaves the file as it was |
| `Legacy.Scraper.IndexOneDay` | newspaper-scraper/spiegel.py:99-108 | one day leaves the state `IndexDay` gives |
| `Legacy.Scraper.IndexPublishedArticlesPerDay` | newspaper-scraper/spiegel.py:75-114 | leaves the state of the day loop over the kept days; with no day kept the file and the write count are unchanged; when completed, the file holds the final articles after `SaveCount` writes |
| `Legacy.Scraper.IndexAllDays` | newspaper-scraper/spiegel.py:94-114 | the loop equals `IndexDays`, saving on the 50-item schedule |
| `Legacy.Scraper.VisitPublic` | newspaper-scraper/spiegel.py:136-150 | one iteration is the public step without parsing |
| `Legacy.Scraper.ScrapePublicArticlesRawHtml` | newspaper-scraper/spiegel.py:116-153 | the pass equals the public fold without parsing over this newspaper's null-`Public` rows; with no candidate the file and the write count are unchanged; a completed pass leaves the final articles in the file |
| `Legacy.Scraper.VisitAllPublic` | newspaper-scraper/spiegel.py:133-153 | the loop equals the fold and saves on the 50-item schedule, the last item included |

## Left out

- `Scraping.Scraper.ScrapePrivateArticlesRawHtml`: the source's `while True` has no bound. The model runs at most `maxAttempts` attempts and reports `GaveUp` after them. With exceptions caught and no credentials, the source loops forever; the model says so only up to the bound (`MissingCredentials`).
- `Scraping.Scraper.IndexAllDays`, `Scraping.Scraper.IndexPublishedArticles` and `Scraping.Scraper.ScrapePrivateArticlesRawHtml`: past the gate, on a raise or over several attempts, they state only that the file holds the final articles or was not written at all. Which of the two happened (whether the first kept day raised, whether some attempt reached a fetch) is not stated; `Scraping.Scraper.IndexNextDay` and `Scraping.Scraper.PrivateAttemptRun` state it for one day and one attempt.
- `Sueddeutsche.Dedupe`: `list(set(urls))` has no defined order. The model keeps the first occurrence of each URL in list order. Membership, distinctness and length hold for any order; the clause that a duplicate-free input comes back unchanged holds only for the model's chosen order, and nothing else in the model relies on it.
- `Scraping.Scraper.VisitPublic` and `Scraping.Scraper.VisitPrivate` call `raw_html_add_blop` on the corrected store. As written, the newer store lacks it, so a raw-only pass would raise AttributeError at its first stored page. The Finding below covers the same missing methods.
- Site adapters, goose3 extraction, Selenium login and page fetches are function parameters. Three adapter exceptions are not modelled, because the adapters are total functions here: one raised by `get_published_articles` (scraper.py:61), which would end the day loop of `Scraping.Scraper.IndexPublishedArticles` after the earlier days were saved; one raised by `get_raw_html` in the public pass; and one raised by goose's `extract` (scraper.py:195, outside the `try` of `_parse_article`), which would end the public pass of `Scraping.Scraper.ScrapePublicArticlesRawHtml`. In the private pass, a raising login or fetch is modelled as `AdapterError`.
- The Süddeutsche category and page requests (`sueddeutsche.py:57-88`) are network I/O. Their result enters as the collected URL list, or `None` when a page fetch returned nothing.
- sqlite and pandas I/O are left out: `read_sql_query` with `parse_dates`, `to_sql`, and column types. The file is the value `disk`, and a save copies the table into it. The string `str(x)` gives for a cell is abstracted (`Frame.Render`).
- Index values: pandas allows repeated values in an index, while the model's table has unique keys. A batch that repeats a URL cannot be merged: its INSERTs fail first. So the repeated appends of `pd.concat` are never reached.
- `date_to` of None with a start date (pandas raises) is not modelled: `dateTo` is a day number.
- `delay_interrupt` around a function that raises leaves SIG_IGN installed. `Store.Database.Exit` models this for the cursor close. The modelled saves do not raise, so the path is not modelled for them. Real signal delivery is not modelled either.
- `Indexing.IndexDays`, `Scraping.PublicFold`, `Scraping.PrivateFold`, `Scraping.Retry` and the `Scraping.Scraper` and `Legacy.Scraper` methods take one `now` for a whole pass. The source reads `dt.datetime.now()` per indexed day (scraper.py:71), per visited URL (scraper.py:117, 164, 204) and per save (database.py:110). So the model's pass reads the clock once: that every row of a pass carries the same `DateIndexed`/`DateScrapedHTML` stamp, and every save in a pass sees the same instant, is an artefact of this abstraction.
- `Naming.NewspaperId`: lower-cases ASCII letters only. Python's `str.lower()` also lower-cases non-ASCII letters, and `[A-Z]` in the pattern stays ASCII.
- `Store.Serialized`: adds a `PubDateIndexPage` column even when the table has none. In that case the source's `df.PubDateIndexPage.apply(str)` (database.py:121) raises AttributeError. Tables created by the store always have the column.
- Logging, tqdm progress bars, the display-only `stats` counters and `time.sleep(100)` are left out.
- `parse_raw_html` (`scraper.py:180-187`) is an unimplemented stub that computes a selection and discards it.
- `get_selenium_webdriver`, the site classes other than Süddeutsche and the `DeSpiegel` adapter are not part of this model.
- Calendar and timezone arithmetic are left out: a day is `timestamp / 86400` in UTC.

## Findings

| source | as written | input that shows it | evidently intended | confidence | as-written member | corrected member |
|---|---|---|---|---|---|---|
| newspaper_scraper/scraper.py:77 | `index_published_articles` calls `self._db.raw_html_add_index`, but `newspaper_scraper/database.py` defines no such method (nor `raw_html_add_blop`, called at lines 113 and 160) | any day whose listing has timestamp dates and as many dates as URLs, e.g. one URL with one date: the call raises AttributeError and no URL is ever merged | a store with the raw-HTML relation of `newspaper-scraper/spiegel.py:55-60`, whose INSERTs let the new URLs be appended | not executed | `Indexing.IndexDayAsWrittenNeverMerges` | `Indexing.IndexDay` |

=== FILE: database.dfy ===
/**
 * The article store of `newspaper_scraper/database.py`: `tblArticles` loaded into memory,
 * written back whole by `save_articles` behind an interval gate, with every write bracketed
 * by `delay_interrupt`, which ignores SIGINT for the duration and then reinstates the
 * previous handler. The database file is the value `disk` (None while it has no
 * `tblArticles`); the clock is the parameter `now`, in seconds.
 */
module Store {
  import opened Frame
  import RawHtml

  /** A SIGINT disposition: the default, SIG_IGN, or a handler installed by someone else. */
  datatype Handler = DefaultHandler | IgnoreHandler | CustomHandler(id: nat)

  const SaveInterval: int := 60

  /** The columns `_create_tables` declares for `tblArticles` (URL is the index). */
  const Schema: set<string> := {
    NewspaperIdCol, PubDateIndexPageCol, DateIndexedCol, PublicCol, DateScrapedHtmlCol,
    "Title", "Authors", "PublishDate", "MetaDescription", "Domain",
    "OpengraphTitle", "OpengraphType", "OpengraphUrl", "OpengraphImage", "OpengraphDescription",
    "OpengraphSiteName", "CleanedText", "MetaLang", "MetaKeywords", "MetaFavicon",
    "MetaCanonical", "MetaEncoding", "Image", "Tags", "Tweets", "Movies", "Links"}

  /** Python's `x == n` for a cell and a small integer (`True == 1`, `False == 0`). */
  predicate EqualsInt(c: Cell, n: int)
  {
    (c.Int? && c.i == n) || (c.Bool? && (if c.b then 1 else 0) == n)
  }

  /** The two `apply`s of `_load_tables`: `1`/`'1'` become True, then `0`/`'0'` become False. */
  function NormalizePublic(c: Cell): (r: Cell)
    ensures EqualsInt(c, 1) || c == Str("1") ==> r == Bool(true)
    ensures EqualsInt(c, 0) || c == Str("0") ==> r == Bool(false)
    ensures !(EqualsInt(c, 1) || c == Str("1") || EqualsInt(c, 0) || c == Str("0")) ==> r == c
  {
    var first := if c == Str("1") || EqualsInt(c, 1) then Bool(true) else c;
    if first == Str("0") || EqualsInt(first, 0) then Bool(false) else first
  }

  /** Python's equality of a cell with 1 or 0 holds for the integer and for the boolean alike, and for nothing else. */
  lemma EqualsIntCells(c: Cell)
    ensures EqualsInt(c, 1) <==> c == Int(1) || c == Bool(true)
    ensures EqualsInt(c, 0) <==> c == Int(0) || c == Bool(false)
  {
  }

  /** Normalising is idempotent: a normalised value stays as it is. */
  lemma NormalizePublicIdempotent(c: Cell)
    ensures NormalizePublic(NormalizePublic(c)) == NormalizePublic(c)
  {
  }

  /** The loaded table with its `Public` column normalised; nothing else changes. */
  function NormalizeTable(t: Table): (r: Table)
    requires t.Valid()
    ensures r.Valid() && r.order == t.order && r.columns == t.columns && r.rows.Keys == t.rows.Keys
    ensures forall k :: k in t.rows ==> r.rows[k].Keys == t.rows[k].Keys
    ensures forall k, c :: k in t.rows && c in t.rows[k] ==>
      r.rows[k][c] == if c == PublicCol then NormalizePublic(t.rows[k][c]) else t.rows[k][c]
  {
    Table(t.order,
          map k | k in t.rows :: map c | c in t.rows[k] ::
            if c == PublicCol then NormalizePublic(t.rows[k][c]) else t.rows[k][c],
          t.columns)
  }

  /** Some row holds a list in column `c`: `any(isinstance(x, list) for x in df[c].values)`. */
  predicate HasList(rows: map<string, Row>, c: string)
  {
    exists k :: k in rows && c in rows[k] && rows[k][c].List?
  }

  /** One of the rows under `keys` holds a list in column `c`. */
  predicate ListIn(rows: map<string, Row>, keys: seq<string>, c: string)
  {
    keys != [] && ((keys[0] in rows && c in rows[keys[0]] && rows[keys[0]][c].List?) || ListIn(rows, keys[1..], c))
  }

  /** The columns `save_articles` stringifies because they hold a list, looked up row by row. */
  function ListColumns(t: Table): set<string>
  {
    set c | c in t.columns && ListIn(t.rows, t.order, c)
  }

  lemma {:induction false} ListInMembers(rows: map<string, Row>, keys: seq<string>, c: string)
    ensures ListIn(rows, keys, c) <==>
      exists i :: 0 <= i < |keys| && keys[i] in rows && c in rows[keys[i]] && rows[keys[i]][c].List?
  {
    if keys != [] {
      ListInMembers(rows, keys[1..], c);
      if ListIn(rows, keys[1..], c) {
        var i :| 0 <= i < |keys[1..]| && keys[1..][i] in rows && c in rows[keys[1..][i]] && rows[keys[1..][i]][c].List?;
        assert keys[i + 1] == keys[1..][i];
      }
      if exists i :: 0 <= i < |keys| && keys[i] in rows && c in rows[keys[i]] && rows[keys[i]][c].List? {
        var i :| 0 <= i < |keys| && keys[i] in rows && c in rows[keys[i]] && rows[keys[i]][c].List?;
        if i > 0 {
          assert keys[1..][i - 1] == keys[i];
        }
      }
    }
  }

  /** For a well-formed table, the list columns are exactly the columns with a list in some row. */
  lemma ListColumnsMembers(t: Table, c: string)
    requires t.Valid()
    ensures c in ListColumns(t) <==> c in t.columns && HasList(t.rows, c)
  {
    ListInMembers(t.rows, t.order, c);
    if HasList(t.rows, c) {
      var k :| k in t.rows && c in t.rows[k] && t.rows[k][c].List?;
      var i :| 0 <= i < |t.order| && t.order[i] == k;
    }
  }

  /** A row with the columns in `cols` replaced by the text of their cells (missing cells included). */
  function StringifyRow(row: Row, cols: set<string>): (r: Row)
    ensures r.Keys == row.Keys + cols
  {
    map c | c in row.Keys + cols :: if c in cols then Str(Render(Get(row, c))) else row[c]
  }

  /** The copy `save_articles` writes: list columns and `PubDateIndexPage` stringified. */
  function Serialized(t: Table): (r: Table)
  {
    Table(t.order,
          map k | k in t.rows :: StringifyRow(t.rows[k], ListColumns(t) + {PubDateIndexPageCol}),
          t.columns + {PubDateIndexPageCol})
  }

  /** The rows of the copy: each row stringified in the list columns and `PubDateIndexPage`. */
  lemma SerializedRows(t: Table, k: string)
    requires k in t.rows
    ensures k in Serialized(t).rows
    ensures Serialized(t).rows[k] == StringifyRow(t.rows[k], ListColumns(t) + {PubDateIndexPageCol})
  {
  }

  /** A cell of the copy is a stringified cell, or a cell of the original outside the stringified columns. */
  lemma SerializedCell(t: Table, k: string, c: string)
    requires t.Valid() && k in t.rows && c in Serialized(t).rows[k]
    ensures !Serialized(t).rows[k][c].List?
    ensures c == PubDateIndexPageCol ==> Serialized(t).rows[k][c].Str?
    ensures c in t.rows[k] && !HasList(t.rows, c) && c != PubDateIndexPageCol ==> Serialized(t).rows[k][c] == t.rows[k][c]
  {
    var cols := ListColumns(t) + {PubDateIndexPageCol};
    SerializedRows(t, k);
    ListColumnsMembers(t, c);
    if c !in cols {
      assert c in t.rows[k] && c in t.columns;
      assert t.rows[k][c].List? ==> HasList(t.rows, c);
    }
  }

  /** What is written holds no list, `PubDateIndexPage` is text, and every other cell and the index are kept. */
  lemma SerializedShape(t: Table)
    requires t.Valid()
    ensures Serialized(t).Valid()
    ensures Serialized(t).order == t.order && Serialized(t).rows.Keys == t.rows.Keys
    ensures forall k, c :: k in Serialized(t).rows && c in Serialized(t).rows[k] ==> !Serialized(t).rows[k][c].List?
    ensures forall k :: k in t.rows ==> Serialized(t).rows[k][PubDateIndexPageCol].Str?
    ensures forall k, c :: k in t.rows && c in t.rows[k] && !HasList(t.rows, c) && c != PubDateIndexPageCol ==>
      Serialized(t).rows[k][c] == t.rows[k][c]
  {
    var s := Serialized(t);
    assert s.rows.Keys == t.rows.Keys;
    forall k | k in t.rows
      ensures t.rows[k].Keys <= s.rows[k].Keys <= s.columns && PubDateIndexPageCol in s.rows[k]
    {
      SerializedRows(t, k);
    }
    forall k, c | k in s.rows && c in s.rows[k] ensures !s.rows[k][c].List? {
      SerializedCell(t, k, c);
    }
    forall k | k in t.rows ensures s.rows[k][PubDateIndexPageCol].Str? {
      SerializedCell(t, k, PubDateIndexPageCol);
    }
    forall k, c | k in t.rows && c in t.rows[k] && !HasList(t.rows, c) && c != PubDateIndexPageCol
      ensures s.rows[k][c] == t.rows[k][c]
    {
      SerializedCell(t, k, c);
    }
  }

  /** `StringifyRow` over the columns done so far, one more column at a time. */
  lemma StringifyStep(row: Row, done: set<string>, c: string)
    requires c !in done
    ensures StringifyRow(row, done)[c := Str(Render(Get(StringifyRow(row, done), c)))] == StringifyRow(row, done + {c})
  {
    assert Get(StringifyRow(row, done), c) == Get(row, c);
  }

  /** `df[c] = df[c].apply(str)` on the rows of the copy. */
  function StringifyColumn(rows: map<string, Row>, c: string): (r: map<string, Row>)
    ensures r.Keys == rows.Keys
  {
    map k | k in rows :: rows[k][c := Str(Render(Get(rows[k], c)))]
  }

  /** One pass of the column loop keeps the copy equal to the original with one more column stringified. */
  lemma ColumnStep(t: Table, rows: map<string, Row>, done: set<string>, c: string)
    requires rows.Keys == t.rows.Keys && c !in done
    requires forall k :: k in rows ==> rows[k] == StringifyRow(t.rows[k], done)
    ensures HasList(rows, c) == HasList(t.rows, c)
    ensures forall k :: k in rows ==> StringifyColumn(rows, c)[k] == StringifyRow(t.rows[k], done + {c})
  {
    forall k | k in rows ensures Get(rows[k], c) == Get(t.rows[k], c) {
      assert c !in done;
    }
    if HasList(rows, c) {
      var k :| k in rows && c in rows[k] && rows[k][c].List?;
      assert Get(t.rows[k], c) == rows[k][c];
    }
    if HasList(t.rows, c) {
      var k :| k in t.rows && c in t.rows[k] && t.rows[k][c].List?;
      assert Get(rows[k], c) == t.rows[k][c];
    }
    forall k | k in rows ensures StringifyColumn(rows, c)[k] == StringifyRow(t.rows[k], done + {c}) {
      StringifyStep(t.rows[k], done, c);
    }
  }

  /** Stringifying a column that is already text changes nothing. */
  lemma StringifyAgain(row: Row, cols: set<string>, c: string)
    requires c in cols
    ensures StringifyRow(row, cols)[c := Str(Render(Get(StringifyRow(row, cols), c)))] == StringifyRow(row, cols)
  {
    var r := StringifyRow(row, cols);
    assert Get(r, c) == Str(Render(Get(row, c)));
  }

  /** Stringifying `PubDateIndexPage` after the list columns stringifies both, whether or not it was one of them. */
  lemma PubDateRowStep(row: Row, l: set<string>)
    ensures StringifyRow(row, l)[PubDateIndexPageCol := Str(Render(Get(StringifyRow(row, l), PubDateIndexPageCol)))]
      == StringifyRow(row, l + {PubDateIndexPageCol})
  {
    if PubDateIndexPageCol in l {
      assert l + {PubDateIndexPageCol} == l;
      StringifyAgain(row, l, PubDateIndexPageCol);
    } else {
      StringifyStep(row, l, PubDateIndexPageCol);
    }
  }

  /** The last step: `df.PubDateIndexPage = df.PubDateIndexPage.apply(str)`. */
  lemma PubDateStep(t: Table, rows: map<string, Row>)
    requires rows.Keys == t.rows.Keys
    requires forall k :: k in rows ==> rows[k] == StringifyRow(t.rows[k], ListColumns(t))
    ensures StringifyColumn(rows, PubDateIndexPageCol) == Serialized(t).rows
  {
    var a, b := StringifyColumn(rows, PubDateIndexPageCol), Serialized(t).rows;
    forall k | k in rows ensures k in b && a[k] == b[k] {
      PubDateRowStep(t.rows[k], ListColumns(t));
      SerializedRows(t, k);
    }
    assert a.Keys == b.Keys;
  }

  /** The column loop of `save_articles` on the copy `df`. */
  method SerializeForSave(t: Table) returns (df: Table)
    requires t.Valid()
    ensures df == Serialized(t)
  {
    var rows := t.rows;
    var todo := t.columns;
    ghost var done: set<string> := {};
    while todo != {}
      invariant todo <= t.columns
      invariant rows.Keys == t.rows.Keys
      invariant forall c :: c in done <==> c in t.columns && c !in todo && HasList(t.rows, c)
      invariant forall k :: k in rows ==> rows[k] == StringifyRow(t.rows[k], done)
      decreases todo
    {
      var c :| c in todo;
      ColumnStep(t, rows, done, c);
      if HasList(rows, c) {
        rows := StringifyColumn(rows, c);
        done := done + {c};
      }
      todo := todo - {c};
    }
    forall c ensures c in done <==> c in ListColumns(t) {
      ListColumnsMembers(t, c);
    }
    assert done == ListColumns(t);
    PubDateStep(t, rows);
    df := Table(t.order, StringifyColumn(rows, PubDateIndexPageCol), t.columns + {PubDateIndexPageCol});
  }

  class Database {
    const dbFile: string
    /** `self.articles`, the in-memory working copy of `tblArticles`. */
    var articles: Table
    /** `tblArticles` as stored in the database file; None while the file has no such table. */
    var disk: Option<Table>
    /** `tblRawHTML`; see the findings in README.md. */
    const rawHtml: RawHtml.RawHtmlTable
    const saveInterval: int
    var lastSave: int
    /** The time the store was constructed; `lastSave` is never advanced past its initial value. */
    ghost const constructedAt: int
    var connOpen: bool
    /** Whether `self._cur` is still open. */
    var cursorOpen: bool
    /** The process's SIGINT handler. */
    var sigint: Handler
    /** The SIGINT handler in force at each write of `tblArticles`, in order. */
    var writes: seq<Handler>
    /** The articles `tblArticles` was last written from in this session, if it was. */
    ghost var savedFrom: Option<Table>

    ghost predicate Valid()
      reads this
    {
      articles.Valid() && saveInterval == SaveInterval && lastSave == constructedAt - SaveInterval && Persisted()
    }

    /** The last write of `tblArticles` was of the current articles. */
    ghost predicate UpToDate()
      reads this`savedFrom, this`articles
    {
      savedFrom == Some(articles)
    }

    /** The file holds the serialised copy of the articles it was last written from. */
    ghost predicate Persisted()
      reads this`savedFrom, this`disk
    {
      savedFrom.Some? ==> disk == Some(Serialized(savedFrom.value))
    }

    /** Nothing was written: the file, the write log and the copy last written are as they were. */
    twostate predicate FileKept()
      reads this`disk, this`writes, this`savedFrom
    {
      disk == old(disk) && writes == old(writes) && savedFrom == old(savedFrom)
    }

    /** `signal.signal(SIGINT, h)`: installs `h` and returns the handler it replaces. */
    method SwapHandler(h: Handler) returns (previous: Handler)
      modifies this`sigint
      ensures sigint == h && previous == old(sigint)
    {
      previous := sigint;
      sigint := h;
    }

    /**
     * `Database(db_file)`: connects, sets the interval to 60 s and the last save one interval
     * in the past, and loads `tblArticles`, creating it first if the file has none; all of it
     * with SIGINT ignored, the previous handler reinstated at the end.
     */
    constructor(file: string, stored: Option<Table>, storedRawHtml: map<string, Option<string>>, handler: Handler, now: int)
      requires stored.Some? ==> stored.value.Valid()
      ensures Valid() && Persisted() && connOpen && cursorOpen && sigint == handler && writes == [] && savedFrom == None
      ensures constructedAt == now && lastSave == now - SaveInterval
      ensures stored.Some? ==> disk == stored && articles == NormalizeTable(stored.value)
      ensures stored.None? ==> disk == Some(EmptyTable(Schema)) && articles == EmptyTable(Schema)
      ensures fresh(rawHtml) && rawHtml.rel == storedRawHtml
    {
      dbFile := file;
      disk := stored;
      rawHtml := new RawHtml.RawHtmlTable(storedRawHtml);
      saveInterval := SaveInterval;
      lastSave := now - SaveInterval;
      constructedAt := now;
      connOpen := true;
      cursorOpen := true;
      writes := [];
      savedFrom := None;
      articles := EmptyTable({});
      sigint := handler;
      new;
      var previous := SwapHandler(IgnoreHandler);
      LoadTables();
      previous := SwapHandler(previous);
    }

    /** `_load_tables`: read `tblArticles` and normalise `Public`; create the table if it is missing. */
    method LoadTables()
      requires articles.Valid() && saveInterval == SaveInterval && lastSave == constructedAt - SaveInterval
      requires savedFrom.None? && (disk.Some? ==> disk.value.Valid())
      modifies this`articles, this`disk
      ensures Valid()
      ensures old(disk).Some? ==> disk == old(disk) && articles == NormalizeTable(old(disk).value)
      ensures old(disk).None? ==> disk == Some(EmptyTable(Schema)) && articles == EmptyTable(Schema)
      decreases if disk.None? then 1 else 0, 1
    {
      if disk.Some? {
        articles := NormalizeTable(disk.value);
      } else {
        CreateTables();
      }
    }

    /** `_create_tables`: create `tblArticles` with the declared columns and no rows, then load it. */
    method CreateTables()
      requires articles.Valid() && saveInterval == SaveInterval && lastSave == constructedAt - SaveInterval
      requires savedFrom.None? && disk.None?
      modifies this`articles, this`disk
      ensures Valid() && disk == Some(EmptyTable(Schema)) && articles == EmptyTable(Schema)
      decreases 1, 0
    {
      disk := Some(EmptyTable(Schema));
      LoadTables();
    }

    /**
     * `save_articles(now)`: unless `now` is still within one interval of the last save, write a
     * serialised copy of the articles over `tblArticles`. The articles themselves and the last-save
     * time are left as they are; SIGINT is ignored during the call and reinstated after it.
     */
    method SaveArticles(now: int)
      requires Valid()
      modifies this`disk, this`writes, this`sigint, this`savedFrom
      ensures Valid() && sigint == old(sigint)
      ensures old(lastSave) + saveInterval > now ==> disk == old(disk) && writes == old(writes) && savedFrom == old(savedFrom)
      ensures old(lastSave) + saveInterval <= now ==>
        disk == Some(Serialized(articles)) && writes == old(writes) + [IgnoreHandler] && savedFrom == Some(articles)
    {
      var previous := SwapHandler(IgnoreHandler);
      if lastSave + saveInterval > now {
        previous := SwapHandler(previous);
        return;
      }
      var df := SerializeForSave(articles);
      SerializedShape(articles);
      disk := Some(df);
      savedFrom := Some(articles);
      writes := writes + [sigint];
      previous := SwapHandler(previous);
    }

    /**
     * `Cursor.close()`: sqlite3 checks the cursor's connection first, and on a closed one raises
     * ProgrammingError and leaves the cursor as it is.
     */
    method CloseCursor() returns (err: Option<Error>)
      modifies this`cursorOpen
      ensures err == (if connOpen then None else Some(ProgrammingError))
      ensures cursorOpen == (old(cursorOpen) && !connOpen)
    {
      if !connOpen {
        return Some(ProgrammingError);
      }
      cursorOpen := false;
      err := None;
    }

    /**
     * `__exit__`: save the articles, close the connection, then close the cursor. The connection
     * is closed by then, so closing the cursor raises ProgrammingError; `delay_interrupt` has no
     * `finally`, so the error leaves before the previous handler is reinstated and SIGINT stays
     * ignored.
     */
    method Exit(now: int) returns (err: Option<Error>)
      requires Valid()
      modifies this`disk, this`writes, this`sigint, this`connOpen, this`cursorOpen, this`savedFrom
      ensures Valid() && !connOpen && cursorOpen == old(cursorOpen)
      ensures err == Some(ProgrammingError) && sigint == IgnoreHandler
      ensures old(lastSave) + saveInterval > now ==> disk == old(disk) && writes == old(writes) && savedFrom == old(savedFrom)
      ensures old(lastSave) + saveInterval <= now ==>
        disk == Some(Serialized(articles)) && writes == old(writes) + [IgnoreHandler] && savedFrom == Some(articles)
    {
      var previous := SwapHandler(IgnoreHandler);
      SaveArticles(now);
      connOpen := false;
      err := CloseCursor();
      // The exception propagates out of `_wrapper`: the second `signal.signal` is never reached.
    }
  }

  /**
   * The gate compares against a last-save time that nothing advances: from the moment the store
   * was constructed on, no save is skipped.
   */
  lemma SaveNeverSkipped(db: Database, now: int)
    requires db.Valid() && now >= db.constructedAt
    ensures !(db.lastSave + db.saveInterval > now)
  {
  }
}

=== FILE: flatten.dfy ===
/**
 * `flatten_dict(d, parent_key='', sep='_')`: a nested dictionary becomes a flat one whose
 * keys are the key paths joined by `sep`. A nested dictionary is a sequence of entries in
 * iteration order; the flat result is a map, and of two paths that join to the same key
 * the later one wins, as in `dict(items)`.
 */
module FlattenDict {

  datatype Value<A> = Atom(a: A) | Dict(entries: seq<Entry<A>>)
  datatype Entry<A> = Entry(key: string, val: Value<A>)

  /** `f"{parent_key}{sep}{k}" if parent_key else k` */
  function JoinKey(parent: string, sep: string, k: string): string
  {
    if parent == "" then k else parent + sep + k
  }

  /** The flat dictionary of the nested entries `es` under `parent`. */
  function Flatten<A>(es: seq<Entry<A>>, parent: string, sep: string): (r: map<string, Value<A>>)
    ensures forall k :: k in r ==> r[k].Atom?
    decreases es, 1
  {
    if es == [] then map[]
    else Flatten(es[..|es| - 1], parent, sep) + Contribution(es[|es| - 1], parent, sep)
  }

  /** What one entry adds: a leaf under its joined key, or the flattening of a nested dictionary. */
  function Contribution<A>(e: Entry<A>, parent: string, sep: string): (r: map<string, Value<A>>)
    ensures forall k :: k in r ==> r[k].Atom?
    decreases e, 0
  {
    var newKey := JoinKey(parent, sep, e.key);
    match e.val
    case Atom(_) => map[newKey := e.val]
    case Dict(inner) => Flatten(inner, newKey, sep)
  }

  /** `dict(items)`: a later pair for the same key replaces an earlier one. */
  function DictOf<V>(items: seq<(string, V)>): map<string, V>
  {
    if items == [] then map[]
    else DictOf(items[..|items| - 1])[items[|items| - 1].0 := items[|items| - 1].1]
  }

  /** The pairs of a dictionary's entries, `d.items()`. */
  function Items<A>(es: seq<Entry<A>>): (r: seq<(string, Value<A>)>)
    ensures |r| == |es|
    ensures forall i :: 0 <= i < |es| ==> r[i] == (es[i].key, es[i].val)
  {
    if es == [] then [] else [(es[0].key, es[0].val)] + Items(es[1..])
  }

  lemma {:induction false} DictOfAppend<V>(xs: seq<(string, V)>, ys: seq<(string, V)>)
    ensures DictOf(xs + ys) == DictOf(xs) + DictOf(ys)
    decreases |ys|
  {
    if ys == [] {
      assert xs + ys == xs;
    } else {
      var n := |ys| - 1;
      assert (xs + ys)[..|xs + ys| - 1] == xs + ys[..n];
      DictOfAppend(xs, ys[..n]);
    }
  }

  /** The last entry's contribution overrides the flattening of the entries before it. */
  lemma FlattenSnoc<A>(es: seq<Entry<A>>, e: Entry<A>, parent: string, sep: string)
    ensures Flatten(es + [e], parent, sep) == Flatten(es, parent, sep) + Contribution(e, parent, sep)
  {
    assert (es + [e])[..|es|] == es;
  }

  /** Map union is associative; a helper of `FlattenAppend`, stated on its own so that the flattening terms are not unfolded while it is proved. */
  lemma MapUnionAssoc<K, V>(a: map<K, V>, b: map<K, V>, c: map<K, V>)
    ensures (a + b) + c == a + (b + c)
  {
  }

  /** Flattening a concatenation: whatever the later entries produce overrides the earlier. */
  lemma {:induction false} FlattenAppend<A>(xs: seq<Entry<A>>, ys: seq<Entry<A>>, parent: string, sep: string)
    ensures Flatten(xs + ys, parent, sep) == Flatten(xs, parent, sep) + Flatten(ys, parent, sep)
    decreases |ys|
  {
    if ys == [] {
      assert xs + ys == xs;
    } else {
      var n := |ys| - 1;
      var y := ys[n];
      assert ys == ys[..n] + [y];
      assert xs + ys == (xs + ys[..n]) + [y];
      FlattenAppend(xs, ys[..n], parent, sep);
      FlattenSnoc(xs + ys[..n], y, parent, sep);
      FlattenSnoc(ys[..n], y, parent, sep);
      MapUnionAssoc(Flatten(xs, parent, sep), Flatten(ys[..n], parent, sep), Contribution(y, parent, sep));
    }
  }

  /** An entry whose value is an empty dictionary contributes no key. */
  lemma FlattenEmptyNested<A>(es: seq<Entry<A>>, k: string, parent: string, sep: string)
    ensures Flatten(es + [Entry(k, Dict([]))], parent, sep) == Flatten(es, parent, sep)
  {
    var e: Entry<A> := Entry(k, Dict([]));
    FlattenAppend(es, [e], parent, sep);
    assert [e][..0] == [];
    assert Flatten([e], parent, sep) == map[] + Contribution(e, parent, sep);
    assert Contribution(e, parent, sep) == map[];
  }

  /** A dictionary with no dictionary-valued entries flattens to itself (top-level keys are kept). */
  lemma {:induction false} FlattenFlat<A>(es: seq<Entry<A>>, sep: string)
    requires forall i :: 0 <= i < |es| ==> es[i].val.Atom?
    ensures Flatten(es, "", sep) == DictOf(Items(es))
    decreases |es|
  {
    if es != [] {
      var n := |es| - 1;
      FlattenFlat(es[..n], sep);
      assert Items(es)[..n] == Items(es[..n]);
    }
  }

  /** `path` leads through nested dictionaries of `es` to the leaf `a`. */
  ghost predicate HasLeaf<A>(es: seq<Entry<A>>, path: seq<string>, a: A)
    decreases |path|
  {
    && |path| > 0
    && exists i :: 0 <= i < |es| && es[i].key == path[0] && LeafAt(es[i].val, path, a)
  }

  ghost predicate LeafAt<A>(v: Value<A>, path: seq<string>, a: A)
    requires |path| > 0
    decreases |path|, 0
  {
    if |path| == 1 then v == Atom(a) else v.Dict? && HasLeaf(v.entries, path[1..], a)
  }

  /** The flat key of a key path below `parent`. */
  function JoinPath(parent: string, sep: string, path: seq<string>): string
    decreases |path|
  {
    if path == [] then parent else JoinPath(JoinKey(parent, sep, path[0]), sep, path[1..])
  }

  /** Every leaf appears in the result under its joined key path. */
  lemma {:induction false} FlattenComplete<A>(es: seq<Entry<A>>, parent: string, sep: string, path: seq<string>, a: A)
    requires HasLeaf(es, path, a)
    ensures JoinPath(parent, sep, path) in Flatten(es, parent, sep)
    decreases es
  {
    var i :| 0 <= i < |es| && es[i].key == path[0] && LeafAt(es[i].val, path, a);
    var n := |es| - 1;
    var newKey := JoinKey(parent, sep, es[n].key);
    if i < n {
      assert es[..n][i] == es[i];
      FlattenComplete(es[..n], parent, sep, path, a);
    } else if |path| == 1 {
      assert JoinPath(parent, sep, path) == newKey;
    } else {
      FlattenComplete(es[n].val.entries, newKey, sep, path[1..], a);
    }
  }

  /** Every key of the result is the joined path of a leaf, and holds that leaf's value. */
  lemma {:induction false} FlattenSound<A>(es: seq<Entry<A>>, parent: string, sep: string, k: string)
    requires k in Flatten(es, parent, sep)
    ensures exists path :: JoinPath(parent, sep, path) == k && HasLeaf(es, path, Flatten(es, parent, sep)[k].a)
    decreases es
  {
    var n := |es| - 1;
    var last := es[n];
    var newKey := JoinKey(parent, sep, last.key);
    var r := Flatten(es, parent, sep);
    var c := match last.val
      case Atom(_) => map[newKey := last.val]
      case Dict(inner) => Flatten(inner, newKey, sep);
    assert r == Flatten(es[..n], parent, sep) + c;
    if k in c {
      if last.val.Atom? {
        var path := [last.key];
        assert LeafAt(es[n].val, path, r[k].a);
        assert JoinPath(parent, sep, path) == k;
      } else {
        FlattenSound(last.val.entries, newKey, sep, k);
        var p' :| JoinPath(newKey, sep, p') == k && HasLeaf(last.val.entries, p', r[k].a);
        var path := [last.key] + p';
        assert path[1..] == p';
        assert LeafAt(es[n].val, path, r[k].a);
        assert JoinPath(parent, sep, path) == k;
      }
    } else {
      FlattenSound(es[..n], parent, sep, k);
      var path :| JoinPath(parent, sep, path) == k && HasLeaf(es[..n], path, r[k].a);
      var i :| 0 <= i < n && es[..n][i].key == path[0] && LeafAt(es[..n][i].val, path, r[k].a);
      assert es[i] == es[..n][i];
    }
  }

  /** `items.extend(m.items())`: appends the pairs of `m` in some order. */
  method ExtendItems<V>(items: seq<(string, V)>, m: map<string, V>) returns (r: seq<(string, V)>)
    ensures DictOf(r) == DictOf(items) + m
  {
    r := items;
    var rest := m.Keys;
    while rest != {}
      invariant rest <= m.Keys
      invariant DictOf(r) == DictOf(items) + map k | k in m && k !in rest :: m[k]
      decreases rest
    {
      var k :| k in rest;
      DictOfAppend(r, [(k, m[k])]);
      assert DictOf([(k, m[k])]) == map[k := m[k]];
      r := r + [(k, m[k])];
      rest := rest - {k};
    }
  }

  /** The loop of `flatten_dict`: accumulate `items`, recurse into nested dictionaries, return `dict(items)`. */
  method FlattenLoop<A>(es: seq<Entry<A>>, parent: string, sep: string) returns (r: map<string, Value<A>>)
    ensures r == Flatten(es, parent, sep)
    ensures forall k :: k in r ==> r[k].Atom?
    decreases es
  {
    var items: seq<(string, Value<A>)> := [];
    var i := 0;
    while i < |es|
      invariant 0 <= i <= |es|
      invariant DictOf(items) == Flatten(es[..i], parent, sep)
    {
      var k, v := es[i].key, es[i].val;
      var newKey := JoinKey(parent, sep, k);
      assert es[..i + 1][..i] == es[..i];
      if v.Dict? {
        var sub := FlattenLoop(v.entries, newKey, sep);
        items := ExtendItems(items, sub);
      } else {
        DictOfAppend(items, [(newKey, v)]);
        assert DictOf([(newKey, v)]) == map[newKey := v];
        items := items + [(newKey, v)];
      }
      i := i + 1;
    }
    assert es[..i] == es;
    r := DictOf(items);
  }
}

=== FILE: frame.dfy ===
/**
 * The in-memory article table (a pandas DataFrame indexed by URL) as plain values:
 * cells, rows as column-to-cell maps (a missing column reads as null), and a table
 * made of the index in row order, the rows by URL and the set of column names.
 * Timestamps are integer seconds since the epoch in UTC, calendar days integer day numbers.
 */
module Frame {

  datatype Option<T> = None | Some(value: T)

  /** The errors the modelled code raises. */
  datatype Error =
    | AssertionError    // a failed `assert`
    | ValueError        // bad arguments, e.g. missing credentials, index/value length mismatch
    | AttributeError    // a method the object does not have
    | IntegrityError    // a duplicate primary key in an INSERT
    | AdapterError      // any exception raised inside a site adapter or the browser session
    | ProgrammingError  // an sqlite3 operation on a closed connection

  datatype Result<T> = Success(value: T) | Failure(error: Error)

  /** One cell of a table: null (None/NaN/NaT), or a typed value. */
  datatype Cell =
    | Null
    | Bool(b: bool)
    | Int(i: int)
    | Str(s: string)
    | Time(t: int)
    | List(items: seq<Cell>)

  type Row = map<string, Cell>

  const SecondsPerDay: int := 86400

  // Column names used by the modelled code.
  const NewspaperIdCol: string := "NewspaperID"
  const PubDateIndexPageCol: string := "PubDateIndexPage"
  const DateIndexedCol: string := "DateIndexed"
  const PublicCol: string := "Public"
  const DateScrapedHtmlCol: string := "DateScrapedHTML"

  /** `row[col]`, where a column the row does not carry reads as null. */
  function Get(row: Row, col: string): Cell
  {
    if col in row then row[col] else Null
  }

  /** The calendar day (UTC) a timestamp falls on, as `Timestamp.date()` gives it. */
  function DayOf(t: int): (d: int)
    ensures Midnight(d) <= t < Midnight(d + 1)
  {
    t / SecondsPerDay
  }

  /** Midnight UTC at the start of day `d`. */
  function Midnight(d: int): int
  {
    d * SecondsPerDay
  }

  lemma DayOfMidnight(d: int)
    ensures DayOf(Midnight(d)) == d
  {
    assert Midnight(d) / SecondsPerDay == d;
  }

  /** The text `str(x)` gives for a cell; only its being text matters to the model. */
  function Render(c: Cell): string
  {
    match c
    case Null => "nan"
    case Bool(b) => if b then "True" else "False"
    case Int(_) => "<int>"
    case Str(s) => s
    case Time(_) => "<timestamp>"
    case List(items) => "[...]"
  }

  /**
   * A DataFrame indexed by URL: `order` is the index in row order, `rows` the row of each
   * URL, `columns` the column names (the index column URL is not among them).
   */
  datatype Table = Table(order: seq<string>, rows: map<string, Row>, columns: set<string>)
  {
    /** Every index entry has a row, every row is indexed, and rows carry only table columns. */
    ghost predicate Valid()
    {
      && (forall i :: 0 <= i < |order| ==> order[i] in rows)
      && (forall k :: k in rows ==> k in order)
      && (forall k :: k in rows ==> rows[k].Keys <= columns)
    }
  }

  /** A table with the given columns and no rows. */
  function EmptyTable(columns: set<string>): (t: Table)
    ensures t.Valid() && t.order == [] && t.rows == map[] && t.columns == columns
  {
    Table([], map[], columns)
  }

  /**
   * `df.loc[url, col] = v`: sets one cell, adding the column if it is new and, as pandas
   * does for a label it does not know, a new row if `url` is not in the index.
   */
  function SetCell(t: Table, url: string, col: string, v: Cell): (r: Table)
    requires t.Valid()
    ensures r.Valid()
    ensures url in r.rows && r.rows[url] == (if url in t.rows then t.rows[url] else map[])[col := v]
    ensures forall k :: k in t.rows && k != url ==> k in r.rows && r.rows[k] == t.rows[k]
    ensures r.rows.Keys == t.rows.Keys + {url}
    ensures r.columns == t.columns + {col}
    ensures r.order == if url in t.rows then t.order else t.order + [url]
  {
    var row := if url in t.rows then t.rows[url] else map[];
    Table(if url in t.rows then t.order else t.order + [url],
          t.rows[url := row[col := v]],
          t.columns + {col})
  }

  /**
   * `df.update(other)` for a one-row `other` indexed by `url`: every non-null value of
   * `other` in a column the table already has overwrites that cell; columns the table
   * does not have are ignored, and nothing happens if `url` is not in the index.
   */
  function Update(t: Table, url: string, other: Row): (r: Table)
    requires t.Valid()
    ensures r.Valid()
    ensures r.order == t.order && r.columns == t.columns && r.rows.Keys == t.rows.Keys
    ensures forall k :: k in t.rows && k != url ==> r.rows[k] == t.rows[k]
    ensures url in t.rows ==> forall c :: c in t.columns ==>
      Get(r.rows[url], c) == if c in other && other[c] != Null then other[c] else Get(t.rows[url], c)
  {
    if url !in t.rows then t
    else
      var cur := t.rows[url];
      var row := map c | c in t.columns && (c in cur || (c in other && other[c] != Null)) ::
        if c in other && other[c] != Null then other[c] else cur[c];
      Table(t.order, t.rows[url := row], t.columns)
  }
}

=== FILE: indexing.dfy ===
/**
 * The bookkeeping of `index_published_articles` in `newspaper_scraper/scraper.py`, as
 * functions on values: which days still need indexing, and how one day's URLs are merged
 * into the article table. The driver class that runs them is in scraper.dfy.
 */
module Indexing {
  import opened Frame
  import Urls
  import RawHtml

  /** `pd.date_range(date_from, date_to)` over day numbers: every day from `from` to `to`, in order. */
  function DayRange(from: int, to: int): (r: seq<int>)
    ensures |r| == (if to < from then 0 else to - from + 1)
    ensures forall i :: (0 <= i < |r| ==> r[i] == from + i)
    decreases if to < from then 0 else to - from + 1
  {
    if to < from then [] else [from] + DayRange(from + 1, to)
  }

  /** Some row, of any newspaper, has a `PubDateIndexPage` on calendar day `day`. */
  predicate Covered(t: Table, day: int)
  {
    exists k :: k in t.rows && Get(t.rows[k], PubDateIndexPageCol).Time? && DayOf(Get(t.rows[k], PubDateIndexPageCol).t) == day
  }

  /** The days of `days` kept for indexing: all of them, or with `skip` only those not yet covered. */
  function KeepDays(t: Table, days: seq<int>, skip: bool): (r: seq<int>)
    ensures forall d :: d in r <==> d in days && (!skip || !Covered(t, d))
    ensures !skip ==> r == days
    ensures |r| <= |days|
  {
    if days == [] then []
    else
      assert forall d :: d in days <==> d == days[0] || d in days[1..];
      (if !skip || !Covered(t, days[0]) then [days[0]] else []) + KeepDays(t, days[1..], skip)
  }

  /** The day list of `index_published_articles(date_from, date_to, skip_existing)`. */
  function DaysToIndex(t: Table, from: int, to: int, skip: bool): (r: seq<int>)
  {
    KeepDays(t, DayRange(from, to), skip)
  }

  /** A day is indexed iff it lies in the inclusive range and, when skipping, no stored date falls on it; in range order. */
  lemma DaysToIndexSpec(t: Table, from: int, to: int, skip: bool)
    ensures forall d :: d in DaysToIndex(t, from, to, skip) <==> from <= d <= to && (!skip || !Covered(t, d))
    ensures forall i, j :: 0 <= i < j < |DaysToIndex(t, from, to, skip)| ==>
      DaysToIndex(t, from, to, skip)[i] < DaysToIndex(t, from, to, skip)[j]
    ensures !skip ==> DaysToIndex(t, from, to, skip) == DayRange(from, to)
  {
    var r := DayRange(from, to);
    assert forall d :: d in r <==> from <= d <= to by {
      forall d | from <= d <= to ensures d in r { assert r[d - from] == d; }
    }
    KeepDaysIncreasing(t, r, skip);
  }

  lemma {:induction false} KeepDaysIncreasing(t: Table, days: seq<int>, skip: bool)
    requires forall i, j :: 0 <= i < j < |days| ==> days[i] < days[j]
    ensures forall i, j :: 0 <= i < j < |KeepDays(t, days, skip)| ==> KeepDays(t, days, skip)[i] < KeepDays(t, days, skip)[j]
  {
    if days != [] {
      KeepDaysIncreasing(t, days[1..], skip);
      var rest := KeepDays(t, days[1..], skip);
      forall j | 0 <= j < |rest| ensures days[0] < rest[j] {
        assert rest[j] in days[1..];
      }
    }
  }

  /** Every publication date the adapter returned is a timestamp (the `assert` of the source). */
  predicate AllTimes(dates: seq<Cell>)
  {
    forall i :: 0 <= i < |dates| ==> dates[i].Time?
  }

  /** The columns of the frame built for one day's URLs. */
  const IndexColumns: set<string> := {NewspaperIdCol, PubDateIndexPageCol, DateIndexedCol}

  /** The row of a newly indexed URL. */
  function IndexRow(id: string, pubDate: Cell, now: int): Row
  {
    map[NewspaperIdCol := Str(id), PubDateIndexPageCol := pubDate, DateIndexedCol := Time(now)]
  }

  lemma IndexRowShape(id: string, date: Cell, now: int)
    ensures IsIndexRow(IndexRow(id, date, now), id, now)
  {
  }

  /** The URLs of a batch not among `known`, in batch order (`urls[urls['new']].index`). */
  function NewUrls(known: set<string>, urls: seq<string>): (r: seq<string>)
    ensures forall u :: u in r <==> u in urls && u !in known
    ensures |r| <= |urls|
  {
    if urls == [] then []
    else
      assert forall u :: u in urls <==> u == urls[0] || u in urls[1..];
      (if urls[0] in known then [] else [urls[0]]) + NewUrls(known, urls[1..])
  }

  /** The URLs of a batch not among `known`, each at its first occurrence only. */
  function FirstNew(known: set<string>, urls: seq<string>): (r: seq<string>)
    decreases |urls|
  {
    if urls == [] then []
    else if urls[0] in known then FirstNew(known, urls[1..])
    else [urls[0]] + FirstNew(known + {urls[0]}, urls[1..])
  }

  /** A row made by indexing: this newspaper and the indexing time. */
  predicate IsIndexRow(row: Row, id: string, now: int)
  {
    && row.Keys == IndexColumns
    && row[NewspaperIdCol] == Str(id)
    && row[DateIndexedCol] == Time(now)
  }

  /** Appends one URL with its row unless the table already holds it. */
  function AppendOne(t: Table, u: string, row: Row): Table
  {
    if u in t.rows then t else Table(t.order + [u], t.rows[u := row], t.columns)
  }

  /**
   * `pd.concat([articles, batch[batch.new]])`: appends the batch's URLs one by one, each with
   * the row at the same position.
   */
  function AppendBatch(t: Table, urls: seq<string>, newRows: seq<Row>): (r: Table)
    requires |urls| == |newRows|
    ensures r.columns == t.columns
    decreases |urls|
  {
    if urls == [] then t
    else AppendBatch(AppendOne(t, urls[0], newRows[0]), urls[1..], newRows[1..])
  }

  /** The index grows by the batch's URLs not yet present, each once, in batch order. */
  lemma {:induction false} AppendBatchOrder(t: Table, urls: seq<string>, newRows: seq<Row>)
    requires |urls| == |newRows|
    ensures AppendBatch(t, urls, newRows).order == t.order + FirstNew(t.rows.Keys, urls)
    decreases |urls|
  {
    if urls != [] {
      var next := AppendOne(t, urls[0], newRows[0]);
      AppendBatchOrder(next, urls[1..], newRows[1..]);
      if urls[0] !in t.rows {
        assert next.rows.Keys == t.rows.Keys + {urls[0]};
      }
    }
  }

  /**
   * Rows already present are untouched; every URL of the batch ends up in the table; a new row
   * is the batch row paired with its URL somewhere in the batch.
   */
  lemma {:induction false} AppendBatchRows(t: Table, urls: seq<string>, newRows: seq<Row>)
    requires |urls| == |newRows|
    ensures forall k :: k in AppendBatch(t, urls, newRows).rows <==> k in t.rows || k in urls
    ensures forall k :: k in t.rows ==> AppendBatch(t, urls, newRows).rows[k] == t.rows[k]
    ensures forall k :: k in AppendBatch(t, urls, newRows).rows && k !in t.rows ==>
      exists i :: 0 <= i < |urls| && urls[i] == k && AppendBatch(t, urls, newRows).rows[k] == newRows[i]
    decreases |urls|
  {
    if urls != [] {
      var next := AppendOne(t, urls[0], newRows[0]);
      var r := AppendBatch(t, urls, newRows);
      AppendBatchRows(next, urls[1..], newRows[1..]);
      assert r == AppendBatch(next, urls[1..], newRows[1..]);
      forall k | k in r.rows && k !in t.rows
        ensures exists i :: 0 <= i < |urls| && urls[i] == k && r.rows[k] == newRows[i]
      {
        if k in next.rows {
          assert urls[0] == k && r.rows[k] == newRows[0];
        } else {
          var i :| 0 <= i < |urls[1..]| && urls[1..][i] == k && r.rows[k] == newRows[1..][i];
          assert urls[i + 1] == k && newRows[i + 1] == newRows[1..][i];
        }
      }
      forall k | k in urls ensures k in r.rows {
        if k != urls[0] { assert k in urls[1..]; }
      }
    }
  }

  /** Appending keeps the table well formed when the batch rows carry only table columns. */
  lemma {:induction false} AppendBatchValid(t: Table, urls: seq<string>, newRows: seq<Row>)
    requires t.Valid() && |urls| == |newRows|
    requires forall i :: 0 <= i < |newRows| ==> newRows[i].Keys <= t.columns
    ensures AppendBatch(t, urls, newRows).Valid()
    decreases |urls|
  {
    if urls != [] {
      var next := AppendOne(t, urls[0], newRows[0]);
      assert next.Valid();
      AppendBatchValid(next, urls[1..], newRows[1..]);
    }
  }

  /** The rows of one day's frame: this newspaper, each URL's date, the indexing time. */
  function IndexRows(id: string, dates: seq<Cell>, now: int): (r: seq<Row>)
    ensures |r| == |dates|
    ensures forall i :: 0 <= i < |r| ==> r[i] == IndexRow(id, dates[i], now)
  {
    seq(|dates|, i requires 0 <= i < |dates| => IndexRow(id, dates[i], now))
  }

  /**
   * Lines 69-79 of the source for one day: the URLs (already without query strings) not yet in the
   * table are appended, each with the newspaper id, its publication date and the indexing time;
   * the frame's columns join the table's.
   */
  function MergeDay(t: Table, urls: seq<string>, dates: seq<Cell>, id: string, now: int): Table
    requires |urls| == |dates|
  {
    AppendBatch(Table(t.order, t.rows, t.columns + IndexColumns), urls, IndexRows(id, dates, now))
  }

  /**
   * Merging never touches an existing row and never re-appends a URL already present; the index
   * grows exactly by the batch's new URLs, each with a row of this newspaper.
   */
  lemma MergeDayProperties(t: Table, urls: seq<string>, dates: seq<Cell>, id: string, now: int)
    requires t.Valid() && |urls| == |dates|
    ensures MergeDay(t, urls, dates, id, now).Valid()
    ensures MergeDay(t, urls, dates, id, now).columns == t.columns + IndexColumns
    ensures MergeDay(t, urls, dates, id, now).order == t.order + FirstNew(t.rows.Keys, urls)
    ensures forall k :: k in MergeDay(t, urls, dates, id, now).rows <==> k in t.rows || k in urls
    ensures forall k :: k in t.rows ==> MergeDay(t, urls, dates, id, now).rows[k] == t.rows[k]
    ensures forall k :: k in MergeDay(t, urls, dates, id, now).rows && k !in t.rows ==>
      IsIndexRow(MergeDay(t, urls, dates, id, now).rows[k], id, now)
  {
    var t' := Table(t.order, t.rows, t.columns + IndexColumns);
    var rows := IndexRows(id, dates, now);
    forall i | 0 <= i < |rows| ensures rows[i].Keys <= t'.columns {
      IndexRowShape(id, dates[i], now);
    }
    AppendBatchValid(t', urls, rows);
    AppendBatchOrder(t', urls, rows);
    AppendBatchRows(t', urls, rows);
    var r := AppendBatch(t', urls, rows);
    forall k | k in r.rows && k !in t.rows ensures IsIndexRow(r.rows[k], id, now) {
      var i :| 0 <= i < |urls| && urls[i] == k && r.rows[k] == rows[i];
      IndexRowShape(id, dates[i], now);
    }
  }

  /** A merge whose URLs are all present changes no row. */
  lemma MergeDayKnown(t: Table, urls: seq<string>, dates: seq<Cell>, id: string, now: int)
    requires t.Valid() && |urls| == |dates|
    requires forall u :: u in urls ==> u in t.rows
    ensures MergeDay(t, urls, dates, id, now).rows == t.rows
  {
    MergeDayProperties(t, urls, dates, id, now);
  }

  /**
   * A merge never uncovers a day, so once a day is covered `skip_existing` leaves it out of
   * every later run: the days still to index only shrink.
   */
  lemma MergeDayKeepsCovered(t: Table, urls: seq<string>, dates: seq<Cell>, id: string, now: int, from: int, to: int)
    requires t.Valid() && |urls| == |dates|
    ensures forall day :: Covered(t, day) ==> Covered(MergeDay(t, urls, dates, id, now), day)
    ensures forall d :: d in DaysToIndex(MergeDay(t, urls, dates, id, now), from, to, true) ==> d in DaysToIndex(t, from, to, true)
  {
    var t' := MergeDay(t, urls, dates, id, now);
    MergeDayProperties(t, urls, dates, id, now);
    forall day | Covered(t, day)
      ensures Covered(t', day)
    {
      var k :| k in t.rows && Get(t.rows[k], PubDateIndexPageCol).Time? && DayOf(Get(t.rows[k], PubDateIndexPageCol).t) == day;
      assert k in t'.rows && t'.rows[k] == t.rows[k];
    }
    DaysToIndexSpec(t, from, to, true);
    DaysToIndexSpec(t', from, to, true);
  }

  /** Indexing the same batch twice adds nothing the second time. */
  lemma MergeDayIdempotent(t: Table, urls: seq<string>, dates: seq<Cell>, id: string, now: int)
    requires t.Valid() && |urls| == |dates|
    ensures NewUrls(MergeDay(t, urls, dates, id, now).rows.Keys, urls) == []
    ensures MergeDay(MergeDay(t, urls, dates, id, now), urls, dates, id, now).rows == MergeDay(t, urls, dates, id, now).rows
  {
    var r := MergeDay(t, urls, dates, id, now);
    MergeDayProperties(t, urls, dates, id, now);
    assert forall u :: u in urls ==> u in r.rows.Keys;
    NewUrlsNone(r.rows.Keys, urls);
    MergeDayKnown(r, urls, dates, id, now);
  }

  lemma NewUrlsNone(known: set<string>, urls: seq<string>)
    requires forall u :: u in urls ==> u in known
    ensures NewUrls(known, urls) == []
  {
  }

  /** What indexing may do to a table: keep every row and the index prefix, and add rows of this newspaper under URLs without a query string. */
  ghost predicate Extends(t: Table, r: Table, id: string)
  {
    && t.order <= r.order
    && (forall k :: k in t.rows ==> k in r.rows && r.rows[k] == t.rows[k])
    && (forall k :: k in r.rows && k !in t.rows ==> '?' !in k && Get(r.rows[k], NewspaperIdCol) == Str(id))
  }

  lemma ExtendsTransitive(a: Table, b: Table, c: Table, id: string)
    requires Extends(a, b, id) && Extends(b, c, id)
    ensures Extends(a, c, id)
  {
    assert a.order <= c.order by {
      assert c.order[..|b.order|] == b.order;
      assert c.order[..|a.order|] == c.order[..|b.order|][..|a.order|];
    }
  }

  /** The state the indexing loop leaves: the table, the raw-HTML relation, and the error that stopped it. */
  datatype IndexState = IndexState(table: Table, rawHtml: map<string, Option<string>>, error: Option<Error>)

  /**
   * One day of the corrected loop: fetch, strip query strings, check the dates are timestamps,
   * build the frame (its index and date lists must be equally long), insert the new URLs into the
   * raw-HTML relation, then append them to the table.
   */
  function IndexDay(t: Table, rel: map<string, Option<string>>, listing: (seq<string>, seq<Cell>), id: string, now: int): (r: IndexState)
    requires t.Valid()
    ensures r.table.Valid()
    ensures r.error.Some? ==> r.table == t
    ensures r.error.None? <==>
      AllTimes(listing.1) && |listing.0| == |listing.1| && RawHtml.Insertable(rel, NewUrls(t.rows.Keys, Urls.StripAll(listing.0)))
  {
    var urls := Urls.StripAll(listing.0);
    var dates := listing.1;
    if !AllTimes(dates) then IndexState(t, rel, Some(AssertionError))
    else if |urls| != |dates| then IndexState(t, rel, Some(ValueError))
    else
      var ins := RawHtml.InsertAll(rel, NewUrls(t.rows.Keys, urls));
      RawHtml.InsertAllSucceeds(rel, NewUrls(t.rows.Keys, urls));
      if ins.1.Some? then IndexState(t, ins.0, ins.1)
      else
        MergeDayProperties(t, urls, dates, id, now);
        IndexState(MergeDay(t, urls, dates, id, now), ins.0, None)
  }

  /**
   * What one day writes: the raw-HTML relation holds the INSERTs made, and on success it has
   * gained exactly the stripped URLs the table lacked, each with a NULL page, while the table
   * has had the same URLs appended.
   */
  lemma IndexDayEffect(t: Table, rel: map<string, Option<string>>, listing: (seq<string>, seq<Cell>), id: string, now: int)
    requires t.Valid()
    ensures var r := IndexDay(t, rel, listing, id, now);
      && (AllTimes(listing.1) && |listing.0| == |listing.1| ==>
          r.rawHtml == RawHtml.InsertAll(rel, NewUrls(t.rows.Keys, Urls.StripAll(listing.0))).0)
      && (r.error.None? ==>
        && (forall u :: u in r.rawHtml <==> u in rel || (u in Urls.StripAll(listing.0) && u !in t.rows))
        && (forall u :: u in r.rawHtml && u !in rel ==> r.rawHtml[u] == None)
        && r.table == MergeDay(t, Urls.StripAll(listing.0), listing.1, id, now))
  {
    RawHtml.InsertAllSucceeds(rel, NewUrls(t.rows.Keys, Urls.StripAll(listing.0)));
  }

  /** A successful day extends the table: old rows kept, new rows of this newspaper without query strings. */
  lemma IndexDayExtends(t: Table, rel: map<string, Option<string>>, listing: (seq<string>, seq<Cell>), id: string, now: int)
    requires t.Valid()
    ensures Extends(t, IndexDay(t, rel, listing, id, now).table, id)
  {
    var s := IndexDay(t, rel, listing, id, now);
    var urls := Urls.StripAll(listing.0);
    if s.error.None? {
      assert AllTimes(listing.1) && |urls| == |listing.1|;
      RawHtml.InsertAllSucceeds(rel, NewUrls(t.rows.Keys, urls));
      var m := MergeDay(t, urls, listing.1, id, now);
      assert s.table == m;
      MergeDayProperties(t, urls, listing.1, id, now);
      forall k | k in m.rows && k !in t.rows ensures '?' !in k && Get(m.rows[k], NewspaperIdCol) == Str(id) {
        var i :| 0 <= i < |urls| && urls[i] == k;
        assert urls[i] == Urls.StripQuery(listing.0[i]);
      }
      assert t.order <= m.order;
    }
  }

  /** The loop over the kept days: day by day until one raises. */
  function IndexDays(t: Table, rel: map<string, Option<string>>, days: seq<int>, listing: int -> (seq<string>, seq<Cell>), id: string, now: int): (r: IndexState)
    requires t.Valid()
    ensures r.table.Valid()
    decreases |days|
  {
    if days == [] then IndexState(t, rel, None)
    else
      var s := IndexDay(t, rel, listing(days[0]), id, now);
      if s.error.Some? then s else IndexDays(s.table, s.rawHtml, days[1..], listing, id, now)
  }

  /** The day loop from the state the day at `i` leaves. */
  lemma IndexDaysNext(t: Table, rel: map<string, Option<string>>, days: seq<int>, i: nat,
                      listing: int -> (seq<string>, seq<Cell>), id: string, now: int, s: IndexState)
    requires t.Valid() && i < |days|
    requires s == IndexDay(t, rel, listing(days[i]), id, now)
    ensures s.table.Valid()
    ensures s.error.Some? ==> IndexDays(t, rel, days[i..], listing, id, now) == s
    ensures s.error.None? ==> IndexDays(s.table, s.rawHtml, days[i + 1..], listing, id, now) == IndexDays(t, rel, days[i..], listing, id, now)
  {
    assert days[i..][0] == days[i] && days[i..][1..] == days[i + 1..];
  }

  /**
   * Indexing only adds: rows present before are unchanged, the old index is a prefix of the new,
   * and every added row belongs to this newspaper under a URL without a query string.
   */
  lemma {:induction false} IndexDaysOnlyAppends(t: Table, rel: map<string, Option<string>>, days: seq<int>,
                                                 listing: int -> (seq<string>, seq<Cell>), id: string, now: int)
    requires t.Valid()
    ensures Extends(t, IndexDays(t, rel, days, listing, id, now).table, id)
    decreases |days|
  {
    if days != [] {
      var s := IndexDay(t, rel, listing(days[0]), id, now);
      IndexDayExtends(t, rel, listing(days[0]), id, now);
      if s.error.None? {
        IndexDaysOnlyAppends(s.table, s.rawHtml, days[1..], listing, id, now);
        ExtendsTransitive(t, s.table, IndexDays(s.table, s.rawHtml, days[1..], listing, id, now).table, id);
      }
    }
  }

  /**
   * Lines 61-79 against the store `newspaper_scraper/database.py` defines, which has no
   * `raw_html_add_index`: once the frame is built, the call raises AttributeError, so nothing is merged.
   */
  function IndexDayAsWritten(t: Table, listing: (seq<string>, seq<Cell>), id: string, now: int): (r: Result<Table>)
    ensures !AllTimes(listing.1) ==> r == Failure(AssertionError)
    ensures AllTimes(listing.1) && |listing.0| != |listing.1| ==> r == Failure(ValueError)
    ensures AllTimes(listing.1) && |listing.0| == |listing.1| ==> r == Failure(AttributeError)
  {
    var urls := Urls.StripAll(listing.0);
    var dates := listing.1;
    if !AllTimes(dates) then Failure(AssertionError)
    else if |urls| != |dates| then Failure(ValueError)
    else
      // `self._db.raw_html_add_index(...)` looks the method up on the store, whose only methods are
      // `__init__`, `_load_tables`, `_create_tables`, `__exit__` and `save_articles`.
      Failure(AttributeError)
  }

  /** As written, no day is ever merged; the corrected step adds a well-formed batch. */
  lemma IndexDayAsWrittenNeverMerges(t: Table, listing: (seq<string>, seq<Cell>), id: string, now: int)
    requires t.Valid()
    ensures IndexDayAsWritten(t, listing, id, now).Failure?
    ensures AllTimes(listing.1) && |listing.0| == |listing.1| && RawHtml.Insertable(map[], NewUrls(t.rows.Keys, Urls.StripAll(listing.0))) ==>
      IndexDay(t, map[], listing, id, now).error.None? &&
      IndexDay(t, map[], listing, id, now).table == MergeDay(t, Urls.StripAll(listing.0), listing.1, id, now)
  {
    if AllTimes(listing.1) && |listing.0| == |listing.1| && RawHtml.Insertable(map[], NewUrls(t.rows.Keys, Urls.StripAll(listing.0))) {
      RawHtml.InsertAllSucceeds(map[], NewUrls(t.rows.Keys, Urls.StripAll(listing.0)));
    }
  }
}

=== FILE: naming.dfy ===
/**
 * The newspaper id of a scraper: its class name with `_` inserted before every
 * upper-case ASCII letter except one in the first position, then lower-cased
 * (`DeSpiegel` becomes `de_spiegel`).
 */
module Naming {

  predicate IsUpper(c: char) { 'A' <= c <= 'Z' }
  predicate IsLower(c: char) { 'a' <= c <= 'z' }

  function ToLower(c: char): (r: char)
    ensures !IsUpper(r)
    ensures IsUpper(c) ==> IsLower(r)
    ensures !IsUpper(c) ==> r == c
  {
    if IsUpper(c) then (c as int + 32) as char else c
  }

  function ToUpper(c: char): (r: char)
    ensures IsLower(c) ==> IsUpper(r)
    ensures !IsLower(c) ==> r == c
  {
    if IsLower(c) then (c as int - 32) as char else c
  }

  /** The rest of the name after its first character: `_x` for each upper-case `X`. */
  function SnakeTail(s: string): (r: string)
    ensures forall i :: 0 <= i < |r| ==> !IsUpper(r[i])
    ensures |r| == |s| + UpperCount(s)
  {
    if s == [] then []
    else (if IsUpper(s[0]) then ['_', ToLower(s[0])] else [s[0]]) + SnakeTail(s[1..])
  }

  /** `re.sub(r'(?<!^)(?=[A-Z])', '_', name).lower()` over ASCII letters. */
  function NewspaperId(name: string): (r: string)
    ensures forall i :: 0 <= i < |r| ==> !IsUpper(r[i])
    ensures |r| == |name| + UpperCount(if name == [] then [] else name[1..])
  {
    if name == [] then [] else [ToLower(name[0])] + SnakeTail(name[1..])
  }

  /** The number of upper-case ASCII letters in `s`. */
  function UpperCount(s: string): nat
  {
    if s == [] then 0 else (if IsUpper(s[0]) then 1 else 0) + UpperCount(s[1..])
  }

  /** The inverse direction: upper-case the first character and every character after `_`, dropping the `_`. */
  function ClassName(id: string): string
  {
    if id == [] then [] else [ToUpper(id[0])] + CamelTail(id[1..])
  }

  function CamelTail(s: string): string
  {
    if s == [] then []
    else if s[0] == '_' && |s| > 1 then [ToUpper(s[1])] + CamelTail(s[2..])
    else [s[0]] + CamelTail(s[1..])
  }

  lemma {:induction false} CamelSnakeTail(s: string)
    requires '_' !in s
    ensures CamelTail(SnakeTail(s)) == s
  {
    if s != [] {
      CamelSnakeTail(s[1..]);
      if IsUpper(s[0]) {
        assert SnakeTail(s) == ['_', ToLower(s[0])] + SnakeTail(s[1..]);
        assert ToUpper(ToLower(s[0])) == s[0];
      } else {
        assert SnakeTail(s) == [s[0]] + SnakeTail(s[1..]);
      }
    }
  }

  /**
   * A class name without `_` whose first character is not a lower-case letter is recovered
   * from its newspaper id, so distinct such class names get distinct ids.
   */
  lemma NewspaperIdRoundTrip(name: string)
    requires '_' !in name
    requires name != [] ==> !IsLower(name[0])
    ensures ClassName(NewspaperId(name)) == name
  {
    if name != [] {
      CamelSnakeTail(name[1..]);
      assert NewspaperId(name) == [ToLower(name[0])] + SnakeTail(name[1..]);
      assert ToUpper(ToLower(name[0])) == name[0];
    }
  }

  lemma NewspaperIdExample()
    ensures NewspaperId("DeSpiegel") == "de_spiegel"
  {
  }
}

=== FILE: rawhtml.dfy ===
/**
 * The raw-HTML relation `tblRawHTML (URL TEXT PRIMARY KEY, RawHTML BLOP)`: the stored page
 * of each indexed URL, NULL until the page has been fetched.
 */
module RawHtml {
  import opened Frame

  /** No URL is inserted twice and none is already present: every INSERT succeeds. */
  predicate Insertable(rel: map<string, Option<string>>, urls: seq<string>)
  {
    && (forall i :: 0 <= i < |urls| ==> urls[i] !in rel)
    && (forall i, j :: 0 <= i < j < |urls| ==> urls[i] != urls[j])
  }

  /**
   * The relation after `INSERT (url, NULL)` for each URL in turn, and the error of the first
   * INSERT whose URL is already present (the primary key), after which nothing more is inserted.
   */
  function InsertAll(rel: map<string, Option<string>>, urls: seq<string>): (r: (map<string, Option<string>>, Option<Error>))
    ensures r.1.None? || r.1 == Some(IntegrityError)
    ensures forall u :: u in rel ==> u in r.0 && r.0[u] == rel[u]
    ensures forall u :: u in r.0 && u !in rel ==> u in urls && r.0[u] == None
    decreases |urls|
  {
    if urls == [] then (rel, None)
    else if urls[0] in rel then (rel, Some(IntegrityError))
    else InsertAll(rel[urls[0] := None], urls[1..])
  }

  /** All INSERTs succeed exactly when the URLs are insertable, and then each URL has its NULL row. */
  lemma {:induction false} InsertAllSucceeds(rel: map<string, Option<string>>, urls: seq<string>)
    ensures InsertAll(rel, urls).1.None? <==> Insertable(rel, urls)
    ensures Insertable(rel, urls) ==> InsertAll(rel, urls).0.Keys == rel.Keys + set u | u in urls
    decreases |urls|
  {
    if urls != [] {
      var x := urls[0];
      InsertAllSucceeds(rel[x := None], urls[1..]);
      if x !in rel {
        if Insertable(rel, urls) {
          assert Insertable(rel[x := None], urls[1..]);
          assert (set u | u in urls) == {x} + set u | u in urls[1..];
        } else if Insertable(rel[x := None], urls[1..]) {
          forall i, j | 0 <= i < j < |urls| ensures urls[i] != urls[j] {
            if i > 0 { assert urls[1..][i - 1] != urls[1..][j - 1]; }
            else { assert urls[1..][j - 1] !in rel[x := None]; }
          }
          forall i | 0 <= i < |urls| ensures urls[i] !in rel {
            if i > 0 { assert urls[1..][i - 1] !in rel[x := None]; }
          }
          assert false;
        }
      } else {
        assert !Insertable(rel, urls) by { assert urls[0] in rel; }
      }
    }
  }

  /** `RawHTMLScraped`: false exactly for a URL with a row whose RawHTML is NULL. */
  predicate Scraped(rel: map<string, Option<string>>, url: string)
  {
    !(url in rel && rel[url].None?)
  }

  /** The relation after `UPDATE tblRawHTML SET RawHTML=html WHERE URL=url`: no row for `url`, no change. */
  function WithBlob(rel: map<string, Option<string>>, url: string, html: Option<string>): (r: map<string, Option<string>>)
    ensures r.Keys == rel.Keys
    ensures forall u :: u in rel ==> r[u] == if u == url then html else rel[u]
  {
    if url in rel then rel[url := html] else rel
  }

  class RawHtmlTable {
    var rel: map<string, Option<string>>

    constructor(stored: map<string, Option<string>>)
      ensures rel == stored
    {
      rel := stored;
    }

    /** `raw_html_add_index(urls)`: one `INSERT (url, NULL)` per URL. */
    method AddIndex(urls: seq<string>) returns (err: Option<Error>)
      modifies this
      ensures (rel, err) == InsertAll(old(rel), urls)
    {
      var i := 0;
      err := None;
      while i < |urls|
        invariant 0 <= i <= |urls|
        invariant InsertAll(rel, urls[i..]) == InsertAll(old(rel), urls)
      {
        assert urls[i..][1..] == urls[i + 1..];
        if urls[i] in rel {
          err := Some(IntegrityError);
          return;
        }
        rel := rel[urls[i] := None];
        i := i + 1;
      }
    }

    /** `raw_html_add_blop(url, html)`: `UPDATE ... SET RawHTML=html WHERE URL=url`; no row, no change. */
    method AddBlob(url: string, html: Option<string>)
      modifies this
      ensures rel == WithBlob(old(rel), url, html)
    {
      if url in rel {
        rel := rel[url := html];
      }
    }
  }
}

=== FILE: scraper.dfy ===
/**
 * The base class `Scraper` of `newspaper_scraper/scraper.py`: it indexes the articles a
 * newspaper published per day, fetches the raw HTML of the public ones, and fetches the
 * private ones after logging in, retrying after any exception. A site is a set of adapter
 * functions (`get_published_articles`, `get_raw_html`, `selenium_login`,
 * `get_private_article_raw_html`, and goose3's extraction), passed in as parameters; the
 * clock is the parameter `now`.
 *
 * Each driver method is proved equal to a fold over the rows it visits; the lemmas below say
 * what those folds do to the article table.
 */
module Scraping {
  import opened Frame
  import Naming
  import Urls
  import Store
  import RawHtml
  import Indexing

  /** How a call ended: nothing to do, finished, an exception escaped, or the retries ran out. */
  datatype Outcome = NothingToDo | Completed | Raised(error: Error) | GaveUp

  /** What goose3 extracts from a page. */
  datatype Extracted = Extracted(title: Cell, authors: seq<Cell>, publishDate: Cell, description: Cell, cleanedText: Cell)

  /** A site's public side: `get_raw_html(url)` gives the page and whether it is public. */
  datatype PublicSite = PublicSite(getRawHtml: string -> (Option<string>, bool), extract: Option<string> -> Extracted)

  /**
   * A site's private side, per retry attempt: whether `selenium_login` returns without raising
   * (the boolean it returns is ignored by the caller), and the page `get_private_article_raw_html`
   * returns (None where it raises).
   */
  datatype PrivateSite = PrivateSite(login: nat -> bool, getPrivateRawHtml: (nat, string) -> Option<string>,
                                     extract: Option<string> -> Extracted)

  /** The columns the scraper itself maintains. */
  const BookkeepingColumns: set<string> := {NewspaperIdCol, PubDateIndexPageCol, DateIndexedCol, PublicCol, DateScrapedHtmlCol}

  /**
   * `_parse_article`: a one-row frame of the extracted fields. pandas accepts the authors list
   * only when it has exactly one entry (the frame has one row); otherwise the constructor
   * raises and the fallback frame has no columns.
   */
  function ParseArticle(x: Extracted, now: int): (r: Row)
    ensures r.Keys !! BookkeepingColumns
    ensures |x.authors| != 1 ==> r == map[]
    ensures |x.authors| == 1 ==>
      && r.Keys == {"Title", "Authors", "PublishDate", "Description", "CleanedText", "DateParsedHTML"}
      && r["Authors"] == x.authors[0] && r["Title"] == x.title && r["DateParsedHTML"] == Time(now)
  {
    if |x.authors| != 1 then map[]
    else map["Title" := x.title, "Authors" := x.authors[0], "PublishDate" := x.publishDate,
             "Description" := x.description, "CleanedText" := x.cleanedText, "DateParsedHTML" := Time(now)]
  }

  /** `update` ignores columns the table lacks, so in a table created by the store the description is never stored. */
  lemma ParsedDescriptionDropped(t: Table, url: string, x: Extracted, now: int)
    requires t.Valid() && t.columns == Store.Schema && url in t.rows
    ensures "Description" !in Update(t, url, ParseArticle(x, now)).rows[url]
    ensures "DateParsedHTML" !in Update(t, url, ParseArticle(x, now)).rows[url]
  {
    assert "Description" !in Store.Schema && "DateParsedHTML" !in Store.Schema;
  }

  /** Merging a parsed row changes no column the row does not carry. */
  lemma UpdateKeepsOthers(t: Table, url: string, other: Row, c: string)
    requires t.Valid() && url in t.rows && c !in other
    ensures Get(Update(t, url, other).rows[url], c) == Get(t.rows[url], c)
  {
    var r := Update(t, url, other);
    if c !in t.columns {
      assert c !in r.rows[url] && c !in t.rows[url];
    }
  }

  datatype Pass = PublicPass | PrivatePass

  /**
   * The row filters: the public pass takes this newspaper's rows whose `Public` is null; the
   * private pass those whose `Public == 0` and which have no `DateScrapedHTML`.
   */
  predicate IsCandidate(t: Table, u: string, id: string, pass: Pass)
  {
    && u in t.rows
    && Get(t.rows[u], NewspaperIdCol) == Str(id)
    && (match pass
        case PublicPass => Get(t.rows[u], PublicCol) == Null
        case PrivatePass => Store.EqualsInt(Get(t.rows[u], PublicCol), 0) && Get(t.rows[u], DateScrapedHtmlCol) == Null)
  }

  /** The candidates among `keys`, in their order. */
  function Select(t: Table, keys: seq<string>, id: string, pass: Pass): (r: seq<string>)
    ensures forall u :: u in r <==> u in keys && IsCandidate(t, u, id, pass)
    ensures |r| <= |keys|
  {
    if keys == [] then []
    else
      assert forall u :: u in keys <==> u == keys[0] || u in keys[1..];
      (if IsCandidate(t, keys[0], id, pass) then [keys[0]] else []) + Select(t, keys[1..], id, pass)
  }

  /** `to_scrape`: the candidate rows in table order. */
  function ToScrape(t: Table, id: string, pass: Pass): seq<string>
  {
    Select(t, t.order, id, pass)
  }

  /** `to_scrape` holds exactly the candidate rows of a well-formed table. */
  lemma ToScrapeSpec(t: Table, id: string, pass: Pass)
    requires t.Valid()
    ensures forall u :: u in ToScrape(t, id, pass) <==> IsCandidate(t, u, id, pass)
  {
    forall u | IsCandidate(t, u, id, pass)
      ensures u in t.order
    {
    }
  }

  /** No row is a candidate, so the candidate list is empty. */
  lemma NoCandidates(t: Table, id: string, pass: Pass)
    requires forall u :: u in t.rows ==> !IsCandidate(t, u, id, pass)
    ensures ToScrape(t, id, pass) == []
  {
    SelectNone(t, t.order, id, pass);
  }

  lemma {:induction false} SelectNone(t: Table, keys: seq<string>, id: string, pass: Pass)
    requires forall u :: u in keys ==> !IsCandidate(t, u, id, pass)
    ensures Select(t, keys, id, pass) == []
  {
    if keys != [] {
      assert keys[0] in keys;
      SelectNone(t, keys[1..], id, pass);
    }
  }

  // ---------------------------------------------------------------------------------------
  // The public pass (lines 86-128)

  /** One visit of the public pass: fetch, store or parse a public page, then record `Public`. */
  function PublicStep(t: Table, rel: map<string, Option<string>>, u: string, site: PublicSite, parse: bool, now: int)
    : (r: (Table, map<string, Option<string>>))
    requires t.Valid()
    ensures r.0.Valid()
  {
    var page := site.getRawHtml(u);
    var t1 :=
      if page.1 && parse then SetCell(Update(t, u, ParseArticle(site.extract(page.0), now)), u, DateScrapedHtmlCol, Time(now))
      else t;
    var rel1 := if page.1 && !parse then RawHtml.WithBlob(rel, u, page.0) else rel;
    (SetCell(t1, u, PublicCol, Bool(page.1)), rel1)
  }

  function PublicFold(t: Table, rel: map<string, Option<string>>, urls: seq<string>, site: PublicSite, parse: bool, now: int)
    : (r: (Table, map<string, Option<string>>))
    requires t.Valid()
    ensures r.0.Valid()
    decreases |urls|
  {
    if urls == [] then (t, rel)
    else
      var s := PublicStep(t, rel, urls[0], site, parse, now);
      PublicFold(s.0, s.1, urls[1..], site, parse, now)
  }

  /** The fold over the rest of the list, from the state one visit leaves. */
  lemma PublicFoldNext(t: Table, rel: map<string, Option<string>>, urls: seq<string>, i: nat, site: PublicSite, parse: bool, now: int,
                       next: (Table, map<string, Option<string>>))
    requires t.Valid() && i < |urls|
    requires next == PublicStep(t, rel, urls[i], site, parse, now)
    ensures next.0.Valid()
    ensures PublicFold(next.0, next.1, urls[i + 1..], site, parse, now) == PublicFold(t, rel, urls[i..], site, parse, now)
  {
    assert urls[i..][0] == urls[i] && urls[i..][1..] == urls[i + 1..];
  }

  /** The cell `update` leaves in column `c` of `before` when merging `parsed` into a table with `columns`. */
  function Merged(before: Row, parsed: Row, columns: set<string>, c: string): (r: Cell)
    ensures c in columns && c in parsed && parsed[c] != Null ==> r == parsed[c]
    ensures !(c in columns && c in parsed && parsed[c] != Null) ==> r == Get(before, c)
  {
    if c in columns && c in parsed && parsed[c] != Null then parsed[c] else Get(before, c)
  }

  /** The goose fields of the page the public fetch of `u` returns. */
  function PublicParsed(site: PublicSite, u: string, now: int): Row
  {
    ParseArticle(site.extract(site.getRawHtml(u).0), now)
  }

  /**
   * What visiting a row in the public pass does to it: `Public` holds the fetched flag; a
   * public page that was parsed has its fields merged in and `DateScrapedHTML` stamped; any
   * other visit changes no cell but `Public`.
   */
  ghost predicate PublicVisited(before: Row, after: Row, public: bool, parsed: Row, columns: set<string>, parse: bool, now: int)
  {
    && Get(after, PublicCol) == Bool(public)
    && Get(after, NewspaperIdCol) == Get(before, NewspaperIdCol)
    && Get(after, DateScrapedHtmlCol) == (if public && parse then Time(now) else Get(before, DateScrapedHtmlCol))
    && forall c :: c != PublicCol && c != DateScrapedHtmlCol ==>
         Get(after, c) == (if public && parse then Merged(before, parsed, columns, c) else Get(before, c))
  }

  /** Only whether a column is a table column matters to `PublicVisited`, and never for the two it sets. */
  lemma PublicVisitedColumns(before: Row, after: Row, public: bool, parsed: Row, cols: set<string>, cols': set<string>,
                             parse: bool, now: int)
    requires cols - {PublicCol, DateScrapedHtmlCol} == cols' - {PublicCol, DateScrapedHtmlCol}
    requires PublicVisited(before, after, public, parsed, cols, parse, now)
    ensures PublicVisited(before, after, public, parsed, cols', parse, now)
  {
    forall c | c != PublicCol && c != DateScrapedHtmlCol
      ensures Merged(before, parsed, cols, c) == Merged(before, parsed, cols', c)
    {
      assert c in cols <==> c in cols - {PublicCol, DateScrapedHtmlCol};
      assert c in cols' <==> c in cols' - {PublicCol, DateScrapedHtmlCol};
    }
  }

  /** Visiting a row twice has the effect of visiting it once. */
  lemma PublicVisitedTwice(a: Row, b: Row, c: Row, public: bool, parsed: Row, columns: set<string>, parse: bool, now: int)
    requires PublicVisited(a, b, public, parsed, columns, parse, now)
    requires PublicVisited(b, c, public, parsed, columns, parse, now)
    ensures PublicVisited(a, c, public, parsed, columns, parse, now)
  {
    forall k | k != PublicCol && k != DateScrapedHtmlCol
      ensures Get(c, k) == (if public && parse then Merged(a, parsed, columns, k) else Get(a, k))
    {
      assert Get(b, k) == (if public && parse then Merged(a, parsed, columns, k) else Get(a, k));
    }
  }

  /**
   * Merging a parsed row and stamping `DateScrapedHTML`, as both passes do: every other cell of
   * the row is what `update` leaves, and the bookkeeping cells the parser does not produce are kept.
   */
  lemma ScrapedRowEffect(t: Table, u: string, parsed: Row, now: int)
    requires t.Valid() && u in t.rows && parsed.Keys !! BookkeepingColumns
    ensures forall c :: c != DateScrapedHtmlCol ==>
      Get(SetCell(Update(t, u, parsed), u, DateScrapedHtmlCol, Time(now)).rows[u], c) == Merged(t.rows[u], parsed, t.columns, c)
    ensures Merged(t.rows[u], parsed, t.columns, NewspaperIdCol) == Get(t.rows[u], NewspaperIdCol)
    ensures Merged(t.rows[u], parsed, t.columns, PublicCol) == Get(t.rows[u], PublicCol)
  {
    var t0 := Update(t, u, parsed);
    var t1 := SetCell(t0, u, DateScrapedHtmlCol, Time(now));
    forall c | c != DateScrapedHtmlCol
      ensures Get(t1.rows[u], c) == Merged(t.rows[u], parsed, t.columns, c)
    {
      assert Get(t1.rows[u], c) == Get(t0.rows[u], c);
      if c !in t.columns {
        assert c !in t0.rows[u] && c !in t.rows[u];
      }
    }
    assert NewspaperIdCol in BookkeepingColumns && PublicCol in BookkeepingColumns;
  }

  lemma PublicStepEffect(t: Table, rel: map<string, Option<string>>, u: string, site: PublicSite, parse: bool, now: int)
    requires t.Valid() && u in t.rows
    ensures PublicStep(t, rel, u, site, parse, now).0.order == t.order
    ensures PublicStep(t, rel, u, site, parse, now).0.rows.Keys == t.rows.Keys
    ensures PublicStep(t, rel, u, site, parse, now).0.columns - {PublicCol, DateScrapedHtmlCol} == t.columns - {PublicCol, DateScrapedHtmlCol}
    ensures forall k :: k in t.rows && k != u ==> PublicStep(t, rel, u, site, parse, now).0.rows[k] == t.rows[k]
    ensures PublicVisited(t.rows[u], PublicStep(t, rel, u, site, parse, now).0.rows[u], site.getRawHtml(u).1,
                          PublicParsed(site, u, now), t.columns, parse, now)
  {
    PublicStepRow(t, rel, u, site, parse, now);
  }

  /** The visited row of one public step. */
  lemma PublicStepRow(t: Table, rel: map<string, Option<string>>, u: string, site: PublicSite, parse: bool, now: int)
    requires t.Valid() && u in t.rows
    ensures PublicVisited(t.rows[u], PublicStep(t, rel, u, site, parse, now).0.rows[u], site.getRawHtml(u).1,
                          PublicParsed(site, u, now), t.columns, parse, now)
  {
    var public := site.getRawHtml(u).1;
    var after := PublicStep(t, rel, u, site, parse, now).0.rows[u];
    if public && parse {
      var t1 := SetCell(Update(t, u, PublicParsed(site, u, now)), u, DateScrapedHtmlCol, Time(now));
      ScrapedRowEffect(t, u, PublicParsed(site, u, now), now);
      assert after == t1.rows[u][PublicCol := Bool(public)];
    } else {
      assert after == t.rows[u][PublicCol := Bool(public)];
    }
  }

  /**
   * The public pass visits only its URLs: other rows are unchanged, no row is added, and every
   * visited row ends up as `PublicVisited` says, a URL listed twice included.
   */
  lemma {:induction false} PublicFoldEffect(t: Table, rel: map<string, Option<string>>, urls: seq<string>,
                                            site: PublicSite, parse: bool, now: int)
    requires t.Valid() && forall u :: u in urls ==> u in t.rows
    ensures PublicFold(t, rel, urls, site, parse, now).0.order == t.order
    ensures PublicFold(t, rel, urls, site, parse, now).0.rows.Keys == t.rows.Keys
    ensures PublicFold(t, rel, urls, site, parse, now).0.columns - {PublicCol, DateScrapedHtmlCol} == t.columns - {PublicCol, DateScrapedHtmlCol}
    ensures forall k :: k in t.rows && k !in urls ==> PublicFold(t, rel, urls, site, parse, now).0.rows[k] == t.rows[k]
    ensures forall u :: u in urls ==>
      PublicVisited(t.rows[u], PublicFold(t, rel, urls, site, parse, now).0.rows[u], site.getRawHtml(u).1,
                    PublicParsed(site, u, now), t.columns, parse, now)
    decreases |urls|
  {
    if urls != [] {
      var u0 := urls[0];
      var s := PublicStep(t, rel, u0, site, parse, now);
      var r := PublicFold(t, rel, urls, site, parse, now);
      PublicStepEffect(t, rel, u0, site, parse, now);
      assert forall u :: u in urls[1..] ==> u in urls;
      PublicFoldEffect(s.0, s.1, urls[1..], site, parse, now);
      assert r == PublicFold(s.0, s.1, urls[1..], site, parse, now);
      forall u | u in urls
        ensures PublicVisited(t.rows[u], r.0.rows[u], site.getRawHtml(u).1, PublicParsed(site, u, now), t.columns, parse, now)
      {
        var public, parsed := site.getRawHtml(u).1, PublicParsed(site, u, now);
        if u !in urls[1..] {
          assert u == u0 && r.0.rows[u] == s.0.rows[u];
        } else {
          PublicVisitedColumns(s.0.rows[u], r.0.rows[u], public, parsed, s.0.columns, t.columns, parse, now);
          if u == u0 {
            PublicVisitedTwice(t.rows[u], s.0.rows[u], r.0.rows[u], public, parsed, t.columns, parse, now);
          } else {
            assert s.0.rows[u] == t.rows[u];
          }
        }
      }
    }
  }

  /**
   * The raw-HTML relation after the public pass: untouched when parsing; otherwise each stored
   * row of a visited public URL holds the fetched page, and no row is added.
   */
  lemma {:induction false} PublicFoldBlobs(t: Table, rel: map<string, Option<string>>, urls: seq<string>,
                                           site: PublicSite, parse: bool, now: int)
    requires t.Valid()
    ensures parse ==> PublicFold(t, rel, urls, site, parse, now).1 == rel
    ensures PublicFold(t, rel, urls, site, parse, now).1.Keys == rel.Keys
    ensures forall k :: k in rel ==>
      PublicFold(t, rel, urls, site, parse, now).1[k] == (if !parse && k in urls && site.getRawHtml(k).1 then site.getRawHtml(k).0 else rel[k])
    decreases |urls|
  {
    if urls != [] {
      var s := PublicStep(t, rel, urls[0], site, parse, now);
      PublicFoldBlobs(s.0, s.1, urls[1..], site, parse, now);
      assert forall k :: k in urls <==> k == urls[0] || k in urls[1..];
    }
  }

  /** After the public pass no row of this newspaper is left with a null `Public`: a second run has nothing to do. */
  lemma PublicPassDrains(t: Table, rel: map<string, Option<string>>, id: string, site: PublicSite, parse: bool, now: int)
    requires t.Valid()
    ensures ToScrape(PublicFold(t, rel, ToScrape(t, id, PublicPass), site, parse, now).0, id, PublicPass) == []
  {
    var todo := ToScrape(t, id, PublicPass);
    var r := PublicFold(t, rel, todo, site, parse, now).0;
    PublicFoldEffect(t, rel, todo, site, parse, now);
    forall u | u in r.rows ensures !IsCandidate(r, u, id, PublicPass) {
      if u !in todo {
        assert u in t.order;
        assert r.rows[u] == t.rows[u];
      }
    }
    NoCandidates(r, id, PublicPass);
  }

  // ---------------------------------------------------------------------------------------
  // The private pass (lines 130-178)

  /** One visit of the private pass, with the page already fetched. */
  function PrivateStep(t: Table, rel: map<string, Option<string>>, u: string, html: string, site: PrivateSite, parse: bool, now: int)
    : (r: (Table, map<string, Option<string>>))
    requires t.Valid()
    ensures r.0.Valid()
  {
    if !parse then (t, RawHtml.WithBlob(rel, u, Some(html)))
    else (SetCell(Update(t, u, ParseArticle(site.extract(Some(html)), now)), u, DateScrapedHtmlCol, Time(now)), rel)
  }

  /** The loop of `_func`: visit each URL until a fetch raises; the visits before it stay done. */
  function PrivateFold(t: Table, rel: map<string, Option<string>>, urls: seq<string>, attempt: nat, site: PrivateSite, parse: bool, now: int)
    : (r: (Table, map<string, Option<string>>, Option<Error>))
    requires t.Valid()
    ensures r.0.Valid()
    ensures r.2.None? || r.2 == Some(AdapterError)
    decreases |urls|
  {
    if urls == [] then (t, rel, None)
    else
      match site.getPrivateRawHtml(attempt, urls[0])
      case None => (t, rel, Some(AdapterError))
      case Some(html) =>
        var s := PrivateStep(t, rel, urls[0], html, site, parse, now);
        PrivateFold(s.0, s.1, urls[1..], attempt, site, parse, now)
  }

  /** The private loop from the state one visit leaves, or its end at a fetch that raises. */
  lemma PrivateFoldNext(t: Table, rel: map<string, Option<string>>, urls: seq<string>, i: nat, attempt: nat,
                        site: PrivateSite, parse: bool, now: int, next: (Table, map<string, Option<string>>))
    requires t.Valid() && i < |urls|
    requires site.getPrivateRawHtml(attempt, urls[i]).Some? ==>
      next == PrivateStep(t, rel, urls[i], site.getPrivateRawHtml(attempt, urls[i]).value, site, parse, now)
    ensures site.getPrivateRawHtml(attempt, urls[i]).None? ==>
      PrivateFold(t, rel, urls[i..], attempt, site, parse, now) == (t, rel, Some(AdapterError))
    ensures site.getPrivateRawHtml(attempt, urls[i]).Some? ==>
      && next.0.Valid()
      && PrivateFold(next.0, next.1, urls[i + 1..], attempt, site, parse, now) == PrivateFold(t, rel, urls[i..], attempt, site, parse, now)
  {
    assert urls[i..][0] == urls[i] && urls[i..][1..] == urls[i + 1..];
  }

  /** The goose fields of the page the private fetch of `u` returns on attempt `attempt`. */
  function PrivateParsed(site: PrivateSite, attempt: nat, u: string, now: int): Row
  {
    ParseArticle(site.extract(site.getPrivateRawHtml(attempt, u)), now)
  }

  /**
   * What a private visit does to a row: without parsing nothing (the page goes to `tblRawHTML`);
   * with parsing the fields are merged in and `DateScrapedHTML` is stamped, while `Public` and
   * the newspaper are kept.
   */
  ghost predicate PrivateVisited(before: Row, after: Row, parsed: Row, columns: set<string>, parse: bool, now: int)
  {
    && Get(after, PublicCol) == Get(before, PublicCol)
    && Get(after, NewspaperIdCol) == Get(before, NewspaperIdCol)
    && Get(after, DateScrapedHtmlCol) == (if parse then Time(now) else Get(before, DateScrapedHtmlCol))
    && (!parse ==> after == before)
    && forall c :: c != PublicCol && c != DateScrapedHtmlCol ==>
         Get(after, c) == (if parse then Merged(before, parsed, columns, c) else Get(before, c))
  }

  /** Only whether a column is a table column matters to `PrivateVisited`, and never for `Public` or the stamp. */
  lemma PrivateVisitedColumns(before: Row, after: Row, parsed: Row, cols: set<string>, cols': set<string>, parse: bool, now: int)
    requires cols - {PublicCol, DateScrapedHtmlCol} == cols' - {PublicCol, DateScrapedHtmlCol}
    requires PrivateVisited(before, after, parsed, cols, parse, now)
    ensures PrivateVisited(before, after, parsed, cols', parse, now)
  {
    forall c | c != PublicCol && c != DateScrapedHtmlCol
      ensures Merged(before, parsed, cols, c) == Merged(before, parsed, cols', c)
    {
      assert c in cols <==> c in cols - {PublicCol, DateScrapedHtmlCol};
      assert c in cols' <==> c in cols' - {PublicCol, DateScrapedHtmlCol};
    }
  }

  /** Visiting a row twice has the effect of visiting it once. */
  lemma PrivateVisitedTwice(a: Row, b: Row, c: Row, parsed: Row, columns: set<string>, parse: bool, now: int)
    requires PrivateVisited(a, b, parsed, columns, parse, now)
    requires PrivateVisited(b, c, parsed, columns, parse, now)
    ensures PrivateVisited(a, c, parsed, columns, parse, now)
  {
    forall k | k != PublicCol && k != DateScrapedHtmlCol
      ensures Get(c, k) == (if parse then Merged(a, parsed, columns, k) else Get(a, k))
    {
      assert Get(b, k) == (if parse then Merged(a, parsed, columns, k) else Get(a, k));
    }
  }

  lemma PrivateStepEffect(t: Table, rel: map<string, Option<string>>, u: string, attempt: nat, site: PrivateSite, parse: bool, now: int)
    requires t.Valid() && u in t.rows && site.getPrivateRawHtml(attempt, u).Some?
    ensures var r := PrivateStep(t, rel, u, site.getPrivateRawHtml(attempt, u).value, site, parse, now).0;
      && r.order == t.order
      && r.rows.Keys == t.rows.Keys
      && r.columns - {PublicCol, DateScrapedHtmlCol} == t.columns - {PublicCol, DateScrapedHtmlCol}
      && (forall k :: k in t.rows && k != u ==> r.rows[k] == t.rows[k])
      && (!parse ==> r == t)
      && PrivateVisited(t.rows[u], r.rows[u], PrivateParsed(site, attempt, u, now), t.columns, parse, now)
  {
    if parse {
      ScrapedRowEffect(t, u, PrivateParsed(site, attempt, u, now), now);
    }
  }

  /**
   * The private loop visits only its URLs and adds no row; without parsing it leaves the
   * articles as they were; when no fetch raised, every URL was visited.
   */
  lemma {:induction false} PrivateFoldEffect(t: Table, rel: map<string, Option<string>>, urls: seq<string>, attempt: nat,
                                             site: PrivateSite, parse: bool, now: int)
    requires t.Valid() && forall u :: u in urls ==> u in t.rows
    ensures PrivateFold(t, rel, urls, attempt, site, parse, now).0.order == t.order
    ensures PrivateFold(t, rel, urls, attempt, site, parse, now).0.rows.Keys == t.rows.Keys
    ensures PrivateFold(t, rel, urls, attempt, site, parse, now).0.columns - {PublicCol, DateScrapedHtmlCol}
      == t.columns - {PublicCol, DateScrapedHtmlCol}
    ensures !parse ==> PrivateFold(t, rel, urls, attempt, site, parse, now).0 == t
    ensures forall k :: k in t.rows && k !in urls ==> PrivateFold(t, rel, urls, attempt, site, parse, now).0.rows[k] == t.rows[k]
    ensures PrivateFold(t, rel, urls, attempt, site, parse, now).2.None? ==>
      forall u :: u in urls ==>
        PrivateVisited(t.rows[u], PrivateFold(t, rel, urls, attempt, site, parse, now).0.rows[u],
                       PrivateParsed(site, attempt, u, now), t.columns, parse, now)
    decreases |urls|
  {
    if urls != [] {
      var u0 := urls[0];
      var r := PrivateFold(t, rel, urls, attempt, site, parse, now);
      match site.getPrivateRawHtml(attempt, u0)
      case None =>
      case Some(html) =>
        var s := PrivateStep(t, rel, u0, html, site, parse, now);
        PrivateStepEffect(t, rel, u0, attempt, site, parse, now);
        assert forall u :: u in urls[1..] ==> u in urls;
        PrivateFoldEffect(s.0, s.1, urls[1..], attempt, site, parse, now);
        assert r == PrivateFold(s.0, s.1, urls[1..], attempt, site, parse, now);
        if r.2.None? {
          forall u | u in urls
            ensures PrivateVisited(t.rows[u], r.0.rows[u], PrivateParsed(site, attempt, u, now), t.columns, parse, now)
          {
            var parsed := PrivateParsed(site, attempt, u, now);
            if u !in urls[1..] {
              assert u == u0 && r.0.rows[u] == s.0.rows[u];
            } else {
              PrivateVisitedColumns(s.0.rows[u], r.0.rows[u], parsed, s.0.columns, t.columns, parse, now);
              if u == u0 {
                PrivateVisitedTwice(t.rows[u], s.0.rows[u], r.0.rows[u], parsed, t.columns, parse, now);
              } else {
                assert s.0.rows[u] == t.rows[u];
              }
            }
          }
        }
    }
  }

  /** How one call of `_func` ended. */
  datatype Attempt = Empty | Done | Failed(error: Error)

  /**
   * `_func` on attempt `attempt`: no credentials raise ValueError; no candidates return; a
   * login that raises ends the call; otherwise the loop runs over the candidates.
   */
  function PrivateAttempt(t: Table, rel: map<string, Option<string>>, credentials: bool, id: string, attempt: nat,
                          site: PrivateSite, parse: bool, now: int)
    : (r: (Table, map<string, Option<string>>, Attempt))
    requires t.Valid()
    ensures r.0.Valid()
    ensures r.2 == Empty ==> ToScrape(t, id, PrivatePass) == []
    ensures !credentials ==> r == (t, rel, Failed(ValueError))
    ensures credentials && ToScrape(t, id, PrivatePass) == [] ==> r == (t, rel, Empty)
    ensures credentials && ToScrape(t, id, PrivatePass) != [] && !site.login(attempt) ==> r == (t, rel, Failed(AdapterError))
    ensures credentials && ToScrape(t, id, PrivatePass) != [] && site.login(attempt) ==>
      var f := PrivateFold(t, rel, ToScrape(t, id, PrivatePass), attempt, site, parse, now);
      && r.0 == f.0 && r.1 == f.1
      && (r.2 == Done <==> f.2.None?)
      && (f.2.Some? ==> r.2 == Failed(f.2.value))
  {
    if !credentials then (t, rel, Failed(ValueError))
    else
      var todo := ToScrape(t, id, PrivatePass);
      if todo == [] then (t, rel, Empty)
      else if !site.login(attempt) then (t, rel, Failed(AdapterError))
      else
        var f := PrivateFold(t, rel, todo, attempt, site, parse, now);
        (f.0, f.1, if f.2.Some? then Failed(f.2.value) else Done)
  }

  /**
   * How the `while True` around `_func` reacts to one attempt: it returns what `_func` returned,
   * re-raises when exceptions are not caught, or (`None`) tries again.
   */
  function Verdict(a: Attempt, catchExceptions: bool): (r: Option<Outcome>)
    ensures r.None? <==> a.Failed? && catchExceptions
    ensures r == Some(NothingToDo) <==> a == Empty
    ensures r == Some(Completed) <==> a == Done
    ensures r.Some? && r.value.Raised? <==> a.Failed? && !catchExceptions
    ensures r != Some(GaveUp)
  {
    match a
    case Empty => Some(NothingToDo)
    case Done => Some(Completed)
    case Failed(e) => if catchExceptions then None else Some(Raised(e))
  }

  /**
   * The `while True` around `_func`, bounded by `fuel` attempts: stop when `_func` returns,
   * re-raise when exceptions are not caught, otherwise try again from the state it left.
   */
  function Retry(t: Table, rel: map<string, Option<string>>, credentials: bool, id: string, attempt: nat, fuel: nat,
                 catchExceptions: bool, site: PrivateSite, parse: bool, now: int)
    : (r: (Table, map<string, Option<string>>, Outcome))
    requires t.Valid()
    ensures r.0.Valid()
    ensures r.2 != GaveUp ==> fuel > 0
    ensures r.2.Raised? ==> !catchExceptions
    decreases fuel
  {
    if fuel == 0 then (t, rel, GaveUp)
    else
      var a := PrivateAttempt(t, rel, credentials, id, attempt, site, parse, now);
      var v := Verdict(a.2, catchExceptions);
      if v.Some? then (a.0, a.1, v.value)
      else Retry(a.0, a.1, credentials, id, attempt + 1, fuel - 1, catchExceptions, site, parse, now)
  }

  /** One attempt of the retry loop: it ends the loop with its verdict, or the loop goes on from the state it left. */
  lemma RetryNext(t: Table, rel: map<string, Option<string>>, credentials: bool, id: string, attempt: nat, fuel: nat,
                  catchExceptions: bool, site: PrivateSite, parse: bool, now: int, a: (Table, map<string, Option<string>>, Attempt))
    requires t.Valid() && fuel > 0
    requires a == PrivateAttempt(t, rel, credentials, id, attempt, site, parse, now)
    ensures a.0.Valid()
    ensures Verdict(a.2, catchExceptions).Some? ==>
      Retry(t, rel, credentials, id, attempt, fuel, catchExceptions, site, parse, now) == (a.0, a.1, Verdict(a.2, catchExceptions).value)
    ensures Verdict(a.2, catchExceptions).None? ==>
      Retry(t, rel, credentials, id, attempt, fuel, catchExceptions, site, parse, now) ==
      Retry(a.0, a.1, credentials, id, attempt + 1, fuel - 1, catchExceptions, site, parse, now)
  {
  }

  /**
   * Without a username or password nothing is scraped: the ValueError escapes when exceptions
   * are not caught, and is otherwise retried until the attempts run out.
   */
  lemma {:induction false} MissingCredentials(t: Table, rel: map<string, Option<string>>, id: string, attempt: nat, fuel: nat,
                                              catchExceptions: bool, site: PrivateSite, parse: bool, now: int)
    requires t.Valid()
    ensures Retry(t, rel, false, id, attempt, fuel, catchExceptions, site, parse, now) ==
      (t, rel, if catchExceptions || fuel == 0 then GaveUp else Raised(ValueError))
    decreases fuel
  {
    if fuel > 0 && catchExceptions {
      MissingCredentials(t, rel, id, attempt + 1, fuel - 1, catchExceptions, site, parse, now);
    }
  }

  /** A finished pass that parses leaves no private candidate of this newspaper behind. */
  lemma PrivateAttemptDrains(t: Table, rel: map<string, Option<string>>, credentials: bool, id: string, attempt: nat,
                             site: PrivateSite, now: int)
    requires t.Valid()
    requires PrivateAttempt(t, rel, credentials, id, attempt, site, true, now).2 == Done
    ensures ToScrape(PrivateAttempt(t, rel, credentials, id, attempt, site, true, now).0, id, PrivatePass) == []
  {
    var todo := ToScrape(t, id, PrivatePass);
    var r := PrivateAttempt(t, rel, credentials, id, attempt, site, true, now).0;
    PrivateFoldEffect(t, rel, todo, attempt, site, true, now);
    forall u | u in r.rows ensures !IsCandidate(r, u, id, PrivatePass) {
      if u !in todo {
        assert u in t.order;
        assert r.rows[u] == t.rows[u];
      }
    }
    NoCandidates(r, id, PrivatePass);
  }

  /** Whenever the retried private scrape completes with parsing, no private candidate is left. */
  lemma {:induction false} RetryCompletedDrains(t: Table, rel: map<string, Option<string>>, credentials: bool, id: string,
                                                attempt: nat, fuel: nat, catchExceptions: bool, site: PrivateSite, now: int)
    requires t.Valid()
    requires Retry(t, rel, credentials, id, attempt, fuel, catchExceptions, site, true, now).2 == Completed
    ensures ToScrape(Retry(t, rel, credentials, id, attempt, fuel, catchExceptions, site, true, now).0, id, PrivatePass) == []
    decreases fuel
  {
    var a := PrivateAttempt(t, rel, credentials, id, attempt, site, true, now);
    if a.2 == Done {
      PrivateAttemptDrains(t, rel, credentials, id, attempt, site, now);
    } else {
      RetryCompletedDrains(a.0, a.1, credentials, id, attempt + 1, fuel - 1, catchExceptions, site, now);
    }
  }

  /**
   * Storing raw HTML only, the private scrape never changes the articles, so `DateScrapedHTML`
   * stays null and every later run (or retry) fetches the same candidates again.
   */
  lemma {:induction false} RawOnlyKeepsCandidates(t: Table, rel: map<string, Option<string>>, credentials: bool, id: string,
                                                  attempt: nat, fuel: nat, catchExceptions: bool, site: PrivateSite, now: int)
    requires t.Valid()
    ensures Retry(t, rel, credentials, id, attempt, fuel, catchExceptions, site, false, now).0 == t
    decreases fuel
  {
    if fuel > 0 {
      var todo := ToScrape(t, id, PrivatePass);
      if credentials && todo != [] && site.login(attempt) {
        PrivateFoldEffect(t, rel, todo, attempt, site, false, now);
      }
      var a := PrivateAttempt(t, rel, credentials, id, attempt, site, false, now);
      RawOnlyKeepsCandidates(a.0, a.1, credentials, id, attempt + 1, fuel - 1, catchExceptions, site, now);
    }
  }

  // ---------------------------------------------------------------------------------------
  // The driver

  class Scraper {
    /** `newspaper_id`: the subclass name in snake case. */
    const newspaperId: string
    const usr: Option<string>
    const psw: Option<string>
    /** The class attribute `_db`: one store shared by every scraper. */
    const db: Store.Database

    constructor(className: string, username: Option<string>, password: Option<string>, shared: Store.Database)
      ensures newspaperId == Naming.NewspaperId(className)
      ensures usr == username && psw == password && db == shared
    {
      newspaperId := Naming.NewspaperId(className);
      usr := username;
      psw := password;
      db := shared;
    }

    /**
     * `index_published_articles`: without a start date nothing happens; otherwise every kept
     * day is indexed in turn, the articles saved after each, until a day raises.
     */
    method IndexPublishedArticles(dateFrom: Option<int>, dateTo: int, skipExisting: bool,
                                  listing: int -> (seq<string>, seq<Cell>), now: int) returns (outcome: Outcome)
      requires db.Valid()
      modifies db`articles, db`disk, db`writes, db`sigint, db`savedFrom, db.rawHtml
      ensures db.Valid()
      ensures dateFrom.None? ==>
        outcome == NothingToDo && db.articles == old(db.articles) && db.rawHtml.rel == old(db.rawHtml.rel)
      ensures dateFrom.Some? ==>
        var days := Indexing.DaysToIndex(old(db.articles), dateFrom.value, dateTo, skipExisting);
        var s := Indexing.IndexDays(old(db.articles), old(db.rawHtml.rel), days, listing, newspaperId, now);
        && db.articles == s.table && db.rawHtml.rel == s.rawHtml
        && outcome == (if days == [] then NothingToDo else if s.error.Some? then Raised(s.error.value) else Completed)
      ensures outcome == Completed && db.lastSave + Store.SaveInterval <= now ==>
        db.UpToDate()
      ensures outcome == NothingToDo ==> db.FileKept()
      ensures outcome.Raised? && db.lastSave + Store.SaveInterval <= now && !db.UpToDate() ==>
        db.articles == old(db.articles) && db.FileKept()
      ensures db.lastSave + Store.SaveInterval > now ==> db.FileKept()
      ensures db.sigint == old(db.sigint)
    {
      if dateFrom.None? {
        return NothingToDo;
      }
      var days := Indexing.DaysToIndex(db.articles, dateFrom.value, dateTo, skipExisting);
      if days == [] {
        return NothingToDo;
      }
      outcome := IndexAllDays(days, listing, now);
    }

    /** The day loop of `index_published_articles` over the kept days. */
    method IndexAllDays(days: seq<int>, listing: int -> (seq<string>, seq<Cell>), now: int) returns (outcome: Outcome)
      requires db.Valid() && days != []
      modifies db`articles, db`disk, db`writes, db`sigint, db`savedFrom, db.rawHtml
      ensures db.Valid()
      ensures var s := Indexing.IndexDays(old(db.articles), old(db.rawHtml.rel), days, listing, newspaperId, now);
        && db.articles == s.table && db.rawHtml.rel == s.rawHtml
        && outcome == (if s.error.Some? then Raised(s.error.value) else Completed)
      ensures outcome == Completed && db.lastSave + Store.SaveInterval <= now ==> db.UpToDate()
      ensures outcome.Raised? && db.lastSave + Store.SaveInterval <= now && !db.UpToDate() ==>
        db.articles == old(db.articles) && db.FileKept()
      ensures db.lastSave + Store.SaveInterval > now ==> db.FileKept()
      ensures db.sigint == old(db.sigint)
    {
      ghost var goal := Indexing.IndexDays(db.articles, db.rawHtml.rel, days, listing, newspaperId, now);
      var i := 0;
      while i < |days|
        invariant 0 <= i <= |days|
        invariant db.Valid()
        invariant Indexing.IndexDays(db.articles, db.rawHtml.rel, days[i..], listing, newspaperId, now) == goal
        invariant i > 0 && db.lastSave + Store.SaveInterval <= now ==> db.UpToDate()
        invariant i == 0 ==> db.articles == old(db.articles) && db.FileKept()
        invariant db.lastSave + Store.SaveInterval > now ==> db.FileKept()
        invariant db.sigint == old(db.sigint)
      {
        var err := IndexNextDay(days, i, listing, now);
        if err.Some? {
          return Raised(err.value);
        }
        i := i + 1;
      }
      assert days[i..] == [];
      return Completed;
    }

    /** One turn of the day loop: index `days[i]`, or stop the loop with its error. */
    method IndexNextDay(days: seq<int>, i: nat, listing: int -> (seq<string>, seq<Cell>), now: int) returns (err: Option<Error>)
      requires db.Valid() && i < |days|
      modifies db`articles, db`disk, db`writes, db`sigint, db`savedFrom, db.rawHtml
      ensures db.Valid()
      ensures err.Some? ==>
        Indexing.IndexDays(old(db.articles), old(db.rawHtml.rel), days[i..], listing, newspaperId, now)
          == Indexing.IndexState(db.articles, db.rawHtml.rel, err)
      ensures err.None? ==>
        Indexing.IndexDays(db.articles, db.rawHtml.rel, days[i + 1..], listing, newspaperId, now)
          == Indexing.IndexDays(old(db.articles), old(db.rawHtml.rel), days[i..], listing, newspaperId, now)
      ensures err.None? && db.lastSave + Store.SaveInterval <= now ==> db.UpToDate()
      ensures err.Some? ==> db.articles == old(db.articles) && db.FileKept()
      ensures db.lastSave + Store.SaveInterval > now ==> db.FileKept()
      ensures db.sigint == old(db.sigint)
    {
      ghost var t, rel := db.articles, db.rawHtml.rel;
      err := IndexOneDay(listing(days[i]), now);
      Indexing.IndexDaysNext(t, rel, days, i, listing, newspaperId, now, Indexing.IndexDay(t, rel, listing(days[i]), newspaperId, now));
    }

    /** Lines 61-84 for one day, against the store with a raw-HTML relation; the articles are saved when the day succeeds. */
    method IndexOneDay(page: (seq<string>, seq<Cell>), now: int) returns (err: Option<Error>)
      requires db.Valid()
      modifies db`articles, db`disk, db`writes, db`sigint, db`savedFrom, db.rawHtml
      ensures db.Valid()
      ensures var s := Indexing.IndexDay(old(db.articles), old(db.rawHtml.rel), page, newspaperId, now);
        db.articles == s.table && db.rawHtml.rel == s.rawHtml && err == s.error
      ensures err.None? && db.lastSave + Store.SaveInterval <= now ==> db.UpToDate()
      ensures err.Some? ==> db.FileKept()
      ensures db.lastSave + Store.SaveInterval > now ==> db.FileKept()
      ensures db.sigint == old(db.sigint)
    {
      var urls := Urls.StripAll(page.0);
      var dates := page.1;
      if !Indexing.AllTimes(dates) {
        return Some(AssertionError);
      }
      if |urls| != |dates| {
        return Some(ValueError);
      }
      var added := Indexing.NewUrls(db.articles.rows.Keys, urls);
      ghost var relBefore := db.rawHtml.rel;
      err := db.rawHtml.AddIndex(added);
      RawHtml.InsertAllSucceeds(relBefore, added);
      if err.Some? {
        return;
      }
      Indexing.MergeDayProperties(db.articles, urls, dates, newspaperId, now);
      db.articles := Indexing.MergeDay(db.articles, urls, dates, newspaperId, now);
      db.SaveArticles(now);
    }

    /**
     * `scrape_public_articles_raw_html`: visits this newspaper's rows with a null `Public` in
     * table order, saving after each.
     */
    method ScrapePublicArticlesRawHtml(parseHtml: bool, site: PublicSite, now: int) returns (outcome: Outcome)
      requires db.Valid()
      modifies db`articles, db`disk, db`writes, db`sigint, db`savedFrom, db.rawHtml
      ensures db.Valid()
      ensures var todo := ToScrape(old(db.articles), newspaperId, PublicPass);
        && (db.articles, db.rawHtml.rel) == PublicFold(old(db.articles), old(db.rawHtml.rel), todo, site, parseHtml, now)
        && outcome == (if todo == [] then NothingToDo else Completed)
      ensures outcome == Completed && db.lastSave + Store.SaveInterval <= now ==>
        db.UpToDate()
      ensures outcome == NothingToDo ==> db.FileKept()
      ensures db.lastSave + Store.SaveInterval > now ==> db.FileKept()
      ensures db.sigint == old(db.sigint)
    {
      var todo := ToScrape(db.articles, newspaperId, PublicPass);
      if todo == [] {
        return NothingToDo;
      }
      VisitAllPublic(todo, parseHtml, site, now);
      return Completed;
    }

    /** The loop of the public pass over the candidate list `todo`, saving after each visit. */
    method VisitAllPublic(todo: seq<string>, parseHtml: bool, site: PublicSite, now: int)
      requires db.Valid() && todo != []
      modifies db`articles, db`disk, db`writes, db`sigint, db`savedFrom, db.rawHtml
      ensures db.Valid()
      ensures (db.articles, db.rawHtml.rel) == PublicFold(old(db.articles), old(db.rawHtml.rel), todo, site, parseHtml, now)
      ensures db.lastSave + Store.SaveInterval <= now ==> db.UpToDate()
      ensures db.lastSave + Store.SaveInterval > now ==> db.FileKept()
      ensures db.sigint == old(db.sigint)
    {
      ghost var goal := PublicFold(db.articles, db.rawHtml.rel, todo, site, parseHtml, now);
      var i := 0;
      while i < |todo|
        invariant 0 <= i <= |todo|
        invariant db.Valid()
        invariant PublicFold(db.articles, db.rawHtml.rel, todo[i..], site, parseHtml, now) == goal
        invariant i > 0 && db.lastSave + Store.SaveInterval <= now ==> db.UpToDate()
        invariant db.lastSave + Store.SaveInterval > now ==> db.FileKept()
        invariant db.sigint == old(db.sigint)
      {
        ghost var before := (db.articles, db.rawHtml.rel);
        VisitPublic(todo[i], parseHtml, site, now);
        PublicFoldNext(before.0, before.1, todo, i, site, parseHtml, now, (db.articles, db.rawHtml.rel));
        i := i + 1;
      }
      assert todo[i..] == [];
    }

    /** The body of the public loop for one URL (lines 104-128). */
    method VisitPublic(u: string, parseHtml: bool, site: PublicSite, now: int)
      requires db.Valid()
      modifies db`articles, db`disk, db`writes, db`sigint, db`savedFrom, db.rawHtml
      ensures db.Valid()
      ensures (db.articles, db.rawHtml.rel) == PublicStep(old(db.articles), old(db.rawHtml.rel), u, site, parseHtml, now)
      ensures db.lastSave + Store.SaveInterval <= now ==> db.UpToDate()
      ensures db.lastSave + Store.SaveInterval > now ==> db.FileKept()
      ensures db.sigint == old(db.sigint)
    {
      var page := site.getRawHtml(u);
      if page.1 {
        if !parseHtml {
          db.rawHtml.AddBlob(u, page.0);
        } else {
          var results := ParseArticle(site.extract(page.0), now);
          db.articles := Update(db.articles, u, results);
          db.articles := SetCell(db.articles, u, DateScrapedHtmlCol, Time(now));
        }
      }
      db.articles := SetCell(db.articles, u, PublicCol, Bool(page.1));
      db.SaveArticles(now);
    }

    /** One call of `_func` (lines 135-166). */
    method PrivateAttemptRun(attempt: nat, parseHtml: bool, site: PrivateSite, now: int) returns (result: Attempt)
      requires db.Valid()
      modifies db`articles, db`disk, db`writes, db`sigint, db`savedFrom, db.rawHtml
      ensures db.Valid()
      ensures (db.articles, db.rawHtml.rel, result) ==
        PrivateAttempt(old(db.articles), old(db.rawHtml.rel), usr.Some? && psw.Some?, newspaperId, attempt, site, parseHtml, now)
      ensures var todo := ToScrape(old(db.articles), newspaperId, PrivatePass);
        if usr.Some? && psw.Some? && todo != [] && site.login(attempt) && site.getPrivateRawHtml(attempt, todo[0]).Some?
        then db.lastSave + Store.SaveInterval <= now ==> db.UpToDate()
        else db.articles == old(db.articles) && db.FileKept()
      ensures db.lastSave + Store.SaveInterval > now ==> db.FileKept()
      ensures db.sigint == old(db.sigint)
    {
      if usr.None? || psw.None? {
        return Failed(ValueError);
      }
      var todo := ToScrape(db.articles, newspaperId, PrivatePass);
      if todo == [] {
        return Empty;
      }
      if !site.login(attempt) {
        return Failed(AdapterError);
      }
      var err := VisitAllPrivate(todo, attempt, parseHtml, site, now);
      return if err.Some? then Failed(err.value) else Done;
    }

    /** The loop of `_func` over the candidate list `todo`, saving after each visit, until a fetch raises. */
    method VisitAllPrivate(todo: seq<string>, attempt: nat, parseHtml: bool, site: PrivateSite, now: int) returns (err: Option<Error>)
      requires db.Valid()
      modifies db`articles, db`disk, db`writes, db`sigint, db`savedFrom, db.rawHtml
      ensures db.Valid()
      ensures (db.articles, db.rawHtml.rel, err) == PrivateFold(old(db.articles), old(db.rawHtml.rel), todo, attempt, site, parseHtml, now)
      ensures if todo != [] && site.getPrivateRawHtml(attempt, todo[0]).Some?
        then db.lastSave + Store.SaveInterval <= now ==> db.UpToDate()
        else db.articles == old(db.articles) && db.FileKept()
      ensures db.lastSave + Store.SaveInterval > now ==> db.FileKept()
      ensures db.sigint == old(db.sigint)
    {
      ghost var goal := PrivateFold(db.articles, db.rawHtml.rel, todo, attempt, site, parseHtml, now);
      var i := 0;
      while i < |todo|
        invariant 0 <= i <= |todo|
        invariant db.Valid()
        invariant PrivateFold(db.articles, db.rawHtml.rel, todo[i..], attempt, site, parseHtml, now) == goal
        invariant i > 0 ==> site.getPrivateRawHtml(attempt, todo[0]).Some?
        invariant i > 0 && db.lastSave + Store.SaveInterval <= now ==> db.UpToDate()
        invariant i == 0 ==> db.articles == old(db.articles) && db.FileKept()
        invariant db.lastSave + Store.SaveInterval > now ==> db.FileKept()
        invariant db.sigint == old(db.sigint)
      {
        ghost var before := (db.articles, db.rawHtml.rel);
        var html := site.getPrivateRawHtml(attempt, todo[i]);
        if html.None? {
          PrivateFoldNext(before.0, before.1, todo, i, attempt, site, parseHtml, now, before);
          return Some(AdapterError);
        }
        VisitPrivate(todo[i], html.value, parseHtml, site, now);
        PrivateFoldNext(before.0, before.1, todo, i, attempt, site, parseHtml, now, (db.articles, db.rawHtml.rel));
        i := i + 1;
      }
      assert todo[i..] == [];
      return None;
    }

    /** The body of the private loop for one fetched page (lines 152-163). */
    method VisitPrivate(u: string, html: string, parseHtml: bool, site: PrivateSite, now: int)
      requires db.Valid()
      modifies db`articles, db`disk, db`writes, db`sigint, db`savedFrom, db.rawHtml
      ensures db.Valid()
      ensures (db.articles, db.rawHtml.rel) == PrivateStep(old(db.articles), old(db.rawHtml.rel), u, html, site, parseHtml, now)
      ensures db.lastSave + Store.SaveInterval <= now ==> db.UpToDate()
      ensures db.lastSave + Store.SaveInterval > now ==> db.FileKept()
      ensures db.sigint == old(db.sigint)
    {
      if !parseHtml {
        db.rawHtml.AddBlob(u, Some(html));
      } else {
        var results := ParseArticle(site.extract(Some(html)), now);
        db.articles := Update(db.articles, u, results);
        db.articles := SetCell(db.articles, u, DateScrapedHtmlCol, Time(now));
      }
      db.SaveArticles(now);
    }

    /**
     * `scrape_private_articles_raw_html`: runs `_func` until it returns; an exception is
     * re-raised unless `catchExceptions`, in which case the next attempt starts from the state
     * the failed one left. At most `maxAttempts` attempts are modelled.
     */
    method ScrapePrivateArticlesRawHtml(parseHtml: bool, catchExceptions: bool, site: PrivateSite, now: int, maxAttempts: nat)
      returns (outcome: Outcome)
      requires db.Valid()
      modifies db`articles, db`disk, db`writes, db`sigint, db`savedFrom, db.rawHtml
      ensures db.Valid()
      ensures (db.articles, db.rawHtml.rel, outcome) ==
        Retry(old(db.articles), old(db.rawHtml.rel), usr.Some? && psw.Some?, newspaperId, 0, maxAttempts,
              catchExceptions, site, parseHtml, now)
      ensures db.lastSave + Store.SaveInterval <= now ==> db.UpToDate() || (db.articles == old(db.articles) && db.FileKept())
      ensures db.lastSave + Store.SaveInterval > now ==> db.FileKept()
      ensures db.sigint == old(db.sigint)
    {
      var credentials := usr.Some? && psw.Some?;
      ghost var goal := Retry(db.articles, db.rawHtml.rel, credentials, newspaperId, 0, maxAttempts, catchExceptions, site, parseHtml, now);
      var attempt := 0;
      while attempt < maxAttempts
        invariant attempt <= maxAttempts
        invariant db.Valid()
        invariant Retry(db.articles, db.rawHtml.rel, credentials, newspaperId, attempt, maxAttempts - attempt,
                        catchExceptions, site, parseHtml, now) == goal
        invariant db.lastSave + Store.SaveInterval <= now ==> db.UpToDate() || (db.articles == old(db.articles) && db.FileKept())
        invariant db.lastSave + Store.SaveInterval > now ==> db.FileKept()
        invariant db.sigint == old(db.sigint)
      {
        ghost var t, rel := db.articles, db.rawHtml.rel;
        var result := PrivateAttemptRun(attempt, parseHtml, site, now);
        RetryNext(t, rel, credentials, newspaperId, attempt, maxAttempts - attempt, catchExceptions, site, parseHtml, now,
                  (db.articles, db.rawHtml.rel, result));
        var verdict := Verdict(result, catchExceptions);
        if verdict.Some? {
          return verdict.value;
        }
        attempt := attempt + 1;
      }
      return GaveUp;
    }
  }
}

=== FILE: spiegel.dfy ===
/**
 * The older single-file scraper `newspaper-scraper/spiegel.py`: a store of `tblArticles` and
 * `tblRawHTML` whose loaded articles carry a derived `RawHTMLScraped` flag, and a scraper
 * that indexes days and fetches public pages, saving every 50 items and after the last.
 * Its saves are unconditional and unserialised, and its scrape state is the `Public` column
 * only; the day adapter returns a newspaper name alongside the URLs, which the loop ignores.
 */
module Legacy {
  import opened Frame
  import Naming
  import Urls
  import RawHtml
  import Indexing
  import Scraping

  const DateIndexPageCol: string := "DateIndexPage"
  const RawHtmlScrapedCol: string := "RawHTMLScraped"

  /** The columns `CREATE TABLE tblArticles` declares here (URL is the index). */
  const LegacySchema: set<string> := {NewspaperIdCol, DateIndexPageCol, PublicCol, RawHtmlScrapedCol}

  /** Lines 49-50: every row gets `RawHTMLScraped`, false exactly for URLs whose stored page is NULL. */
  function WithScrapedFlag(t: Table, rel: map<string, Option<string>>): (r: Table)
    requires t.Valid()
    ensures r.Valid() && r.order == t.order && r.rows.Keys == t.rows.Keys
    ensures r.columns == t.columns + {RawHtmlScrapedCol}
    ensures forall k :: k in t.rows ==> r.rows[k] == t.rows[k][RawHtmlScrapedCol := Bool(RawHtml.Scraped(rel, k))]
  {
    Table(t.order, map k | k in t.rows :: t.rows[k][RawHtmlScrapedCol := Bool(RawHtml.Scraped(rel, k))],
          t.columns + {RawHtmlScrapedCol})
  }

  /** After loading, the flag is true iff the raw-HTML relation has no NULL page for the URL. */
  lemma ScrapedFlagMeaning(t: Table, rel: map<string, Option<string>>, url: string)
    requires t.Valid() && url in t.rows
    ensures Get(WithScrapedFlag(t, rel).rows[url], RawHtmlScrapedCol) == Bool(true) <==> !(url in rel && rel[url] == None)
    ensures url !in rel ==> Get(WithScrapedFlag(t, rel).rows[url], RawHtmlScrapedCol) == Bool(true)
  {
  }

  class Database {
    var articles: Table
    /** `tblArticles` as last written to the file. */
    var disk: Table
    const rawHtml: RawHtml.RawHtmlTable
    var connOpen: bool
    /** The number of `save_articles` calls so far. */
    var writes: nat

    ghost predicate Valid()
      reads this
    {
      articles.Valid() && disk.Valid()
    }

    /**
     * `Database(db_file)`: loads both tables, or creates them when the file has none, then adds
     * the derived `RawHTMLScraped` column to the in-memory articles.
     */
    constructor(stored: Option<(Table, map<string, Option<string>>)>)
      requires stored.Some? ==> stored.value.0.Valid()
      ensures Valid() && connOpen && writes == 0
      ensures fresh(rawHtml)
      ensures stored.Some? ==>
        disk == stored.value.0 && rawHtml.rel == stored.value.1 &&
        articles == WithScrapedFlag(stored.value.0, stored.value.1)
      ensures stored.None? ==>
        disk == EmptyTable(LegacySchema) && rawHtml.rel == map[] &&
        articles == WithScrapedFlag(EmptyTable(LegacySchema), map[])
    {
      var file := if stored.Some? then stored.value.0 else EmptyTable(LegacySchema);
      var rel := if stored.Some? then stored.value.1 else map[];
      disk := file;
      rawHtml := new RawHtml.RawHtmlTable(rel);
      articles := WithScrapedFlag(file, rel);
      connOpen := true;
      writes := 0;
    }

    /** `raw_html_add_index`: one INSERT per URL; the first duplicate raises IntegrityError. */
    method RawHtmlAddIndex(urls: seq<string>) returns (err: Option<Error>)
      modifies rawHtml
      ensures (rawHtml.rel, err) == RawHtml.InsertAll(old(rawHtml.rel), urls)
    {
      err := rawHtml.AddIndex(urls);
    }

    /** `raw_html_add_blop`: stores the page of one URL that has a row. */
    method RawHtmlAddBlob(url: string, html: Option<string>)
      modifies rawHtml
      ensures rawHtml.rel == RawHtml.WithBlob(old(rawHtml.rel), url, html)
    {
      rawHtml.AddBlob(url, html);
    }

    /** `save_articles`: replaces `tblArticles` with the articles, every time it is called. */
    method SaveArticles()
      requires Valid()
      modifies this`disk, this`writes
      ensures Valid() && disk == articles && writes == old(writes) + 1
    {
      disk := articles;
      writes := writes + 1;
    }

    /** `__exit__`: closes the connection without saving. */
    method Exit()
      modifies this`connOpen
      ensures !connOpen
    {
      connOpen := false;
    }
  }

  // ---------------------------------------------------------------------------------------
  // Save schedule

  /** The loops save after the `counter`-th item when it is a multiple of 50 or the last. */
  predicate SavesAfter(counter: nat, total: nat)
  {
    counter % 50 == 0 || counter == total
  }

  /** How many saves the first `done` of `total` items trigger. */
  function SaveCount(done: nat, total: nat): nat
  {
    if done == 0 then 0 else SaveCount(done - 1, total) + (if SavesAfter(done, total) then 1 else 0)
  }

  /** Before the last item, one save per full block of 50. */
  lemma {:induction false} SaveCountBefore(done: nat, total: nat)
    requires done < total
    ensures SaveCount(done, total) == done / 50
  {
    if done > 0 {
      SaveCountBefore(done - 1, total);
    }
  }

  /** A run over `total` items saves once per started block of 50: the last block is always written. */
  lemma SaveCountTotal(total: nat)
    requires total > 0
    ensures SaveCount(total, total) == (total + 49) / 50
  {
    SaveCountBefore(total - 1, total);
  }

  // ---------------------------------------------------------------------------------------
  // Indexing (lines 75-114)

  /** `day in articles.DateIndexPage.values`: some row was indexed from that day's page. */
  predicate Indexed(t: Table, day: int)
  {
    exists k :: k in t.rows && Get(t.rows[k], DateIndexPageCol) == Time(Midnight(day))
  }

  /** The kept days, in order: all of them, or with `skip` those no row was indexed on. */
  function KeepDays(t: Table, days: seq<int>, skip: bool): (r: seq<int>)
    ensures forall d :: d in r <==> d in days && (!skip || !Indexed(t, d))
    ensures !skip ==> r == days
  {
    if days == [] then []
    else
      assert forall d :: d in days <==> d == days[0] || d in days[1..];
      (if !skip || !Indexed(t, days[0]) then [days[0]] else []) + KeepDays(t, days[1..], skip)
  }

  /** The row of a newly indexed URL: the newspaper and the day of the index page. */
  function LegacyRow(id: string, day: int): Row
  {
    map[NewspaperIdCol := Str(id), DateIndexPageCol := Time(Midnight(day))]
  }

  /** The rows of one day's frame: every URL gets the same newspaper and day. */
  function LegacyRows(id: string, day: int, n: nat): (r: seq<Row>)
    ensures |r| == n && forall i :: 0 <= i < n ==> r[i] == LegacyRow(id, day)
  {
    seq(n, i => LegacyRow(id, day))
  }

  /** Lines 102-108: append the batch's URLs not yet present; the frame's columns join the table's. */
  function Merge(t: Table, urls: seq<string>, id: string, day: int): Table
  {
    Indexing.AppendBatch(Table(t.order, t.rows, t.columns + {NewspaperIdCol, DateIndexPageCol}), urls, LegacyRows(id, day, |urls|))
  }

  /** Existing rows are untouched, every batch URL is present afterwards, and each new row is this newspaper's row for the day. */
  lemma MergeProperties(t: Table, urls: seq<string>, id: string, day: int)
    requires t.Valid()
    ensures Merge(t, urls, id, day).Valid()
    ensures Merge(t, urls, id, day).order == t.order + Indexing.FirstNew(t.rows.Keys, urls)
    ensures forall k :: k in Merge(t, urls, id, day).rows <==> k in t.rows || k in urls
    ensures forall k :: k in t.rows ==> Merge(t, urls, id, day).rows[k] == t.rows[k]
    ensures forall k :: k in Merge(t, urls, id, day).rows && k !in t.rows ==> Merge(t, urls, id, day).rows[k] == LegacyRow(id, day)
  {
    var t' := Table(t.order, t.rows, t.columns + {NewspaperIdCol, DateIndexPageCol});
    var rows := LegacyRows(id, day, |urls|);
    assert LegacyRow(id, day).Keys == {NewspaperIdCol, DateIndexPageCol};
    Indexing.AppendBatchValid(t', urls, rows);
    Indexing.AppendBatchOrder(t', urls, rows);
    Indexing.AppendBatchRows(t', urls, rows);
  }

  /**
   * After a merge every day indexed before still is, and the merged day is indexed as soon as one
   * of its URLs was new, so `skip_existing` skips it on a later run.
   */
  lemma MergeMarksDay(t: Table, urls: seq<string>, id: string, day: int)
    requires t.Valid()
    ensures forall d :: Indexed(t, d) ==> Indexed(Merge(t, urls, id, day), d)
    ensures (exists u :: u in urls && u !in t.rows) ==> Indexed(Merge(t, urls, id, day), day)
  {
    var t' := Merge(t, urls, id, day);
    MergeProperties(t, urls, id, day);
    forall d | Indexed(t, d)
      ensures Indexed(t', d)
    {
      var k :| k in t.rows && Get(t.rows[k], DateIndexPageCol) == Time(Midnight(d));
      assert k in t'.rows && t'.rows[k] == t.rows[k];
    }
    if u :| u in urls && u !in t.rows {
      assert u in t'.rows && t'.rows[u] == LegacyRow(id, day);
      assert Get(t'.rows[u], DateIndexPageCol) == Time(Midnight(day));
    }
  }

  /** One day: strip query strings, insert the new URLs into `tblRawHTML`, append them to the articles. */
  function IndexDay(t: Table, rel: map<string, Option<string>>, day: int, urls: seq<string>, id: string): (r: Indexing.IndexState)
    requires t.Valid()
    ensures r.table.Valid()
    ensures r.error.Some? ==> r.table == t && r.error == Some(IntegrityError)
    ensures r.error.None? <==> RawHtml.Insertable(rel, Indexing.NewUrls(t.rows.Keys, Urls.StripAll(urls)))
  {
    var stripped := Urls.StripAll(urls);
    var added := Indexing.NewUrls(t.rows.Keys, stripped);
    var ins := RawHtml.InsertAll(rel, added);
    RawHtml.InsertAllSucceeds(rel, added);
    if ins.1.Some? then Indexing.IndexState(t, ins.0, ins.1)
    else
      MergeProperties(t, stripped, id, day);
      Indexing.IndexState(Merge(t, stripped, id, day), ins.0, None)
  }

  /**
   * What one day writes: `tblRawHTML` holds the INSERTs made, and on success it has gained
   * exactly the stripped URLs the article table lacked, each with a NULL page, while the
   * article table has had the same URLs appended.
   */
  lemma IndexDayEffect(t: Table, rel: map<string, Option<string>>, day: int, urls: seq<string>, id: string)
    requires t.Valid()
    ensures var r := IndexDay(t, rel, day, urls, id);
      && r.rawHtml == RawHtml.InsertAll(rel, Indexing.NewUrls(t.rows.Keys, Urls.StripAll(urls))).0
      && (r.error.None? ==>
        && (forall u :: u in r.rawHtml <==> u in rel || (u in Urls.StripAll(urls) && u !in t.rows))
        && (forall u :: u in r.rawHtml && u !in rel ==> r.rawHtml[u] == None)
        && r.table == Merge(t, Urls.StripAll(urls), id, day))
  {
    RawHtml.InsertAllSucceeds(rel, Indexing.NewUrls(t.rows.Keys, Urls.StripAll(urls)));
  }

  /** Merging query-free URLs extends the table with this newspaper's rows for the day. */
  lemma MergeExtends(t: Table, urls: seq<string>, id: string, day: int)
    requires t.Valid()
    requires forall i :: 0 <= i < |urls| ==> '?' !in urls[i]
    ensures Indexing.Extends(t, Merge(t, urls, id, day), id)
    ensures forall k :: k in Merge(t, urls, id, day).rows && k !in t.rows ==> Merge(t, urls, id, day).rows[k] == LegacyRow(id, day)
  {
    var m := Merge(t, urls, id, day);
    MergeProperties(t, urls, id, day);
    forall k | k in m.rows && k !in t.rows ensures '?' !in k && Get(m.rows[k], NewspaperIdCol) == Str(id) {
      var i :| 0 <= i < |urls| && urls[i] == k;
    }
  }

  /** A successful day adds rows of this newspaper and day under query-free URLs, and keeps every old row. */
  lemma IndexDayExtends(t: Table, rel: map<string, Option<string>>, day: int, urls: seq<string>, id: string)
    requires t.Valid()
    ensures Indexing.Extends(t, IndexDay(t, rel, day, urls, id).table, id)
    ensures forall k :: k in IndexDay(t, rel, day, urls, id).table.rows && k !in t.rows ==>
      IndexDay(t, rel, day, urls, id).table.rows[k] == LegacyRow(id, day)
  {
    var s := IndexDay(t, rel, day, urls, id);
    if s.error.None? {
      var stripped := Urls.StripAll(urls);
      RawHtml.InsertAllSucceeds(rel, Indexing.NewUrls(t.rows.Keys, stripped));
      assert s.table == Merge(t, stripped, id, day);
      MergeExtends(t, stripped, id, day);
    }
  }

  /** The day loop: day by day until an INSERT raises. */
  function IndexDays(t: Table, rel: map<string, Option<string>>, days: seq<int>, listing: int -> (string, seq<string>), id: string)
    : (r: Indexing.IndexState)
    requires t.Valid()
    ensures r.table.Valid()
    decreases |days|
  {
    if days == [] then Indexing.IndexState(t, rel, None)
    else
      var s := IndexDay(t, rel, days[0], listing(days[0]).1, id);
      if s.error.Some? then s else IndexDays(s.table, s.rawHtml, days[1..], listing, id)
  }

  /** The day loop from the state one successful day leaves. */
  lemma IndexDaysNext(t: Table, rel: map<string, Option<string>>, days: seq<int>, i: nat,
                      listing: int -> (string, seq<string>), id: string, s: Indexing.IndexState)
    requires t.Valid() && i < |days|
    requires s == IndexDay(t, rel, days[i], listing(days[i]).1, id)
    ensures s.table.Valid()
    ensures s.error.Some? ==> IndexDays(t, rel, days[i..], listing, id) == s
    ensures s.error.None? ==> IndexDays(s.table, s.rawHtml, days[i + 1..], listing, id) == IndexDays(t, rel, days[i..], listing, id)
  {
    assert days[i..][0] == days[i] && days[i..][1..] == days[i + 1..];
  }

  /** The legacy loop only adds rows too. */
  lemma {:induction false} IndexDaysOnlyAppends(t: Table, rel: map<string, Option<string>>, days: seq<int>,
                                                 listing: int -> (string, seq<string>), id: string)
    requires t.Valid()
    ensures Indexing.Extends(t, IndexDays(t, rel, days, listing, id).table, id)
    decreases |days|
  {
    if days != [] {
      var s := IndexDay(t, rel, days[0], listing(days[0]).1, id);
      IndexDayExtends(t, rel, days[0], listing(days[0]).1, id);
      if s.error.None? {
        IndexDaysOnlyAppends(s.table, s.rawHtml, days[1..], listing, id);
        Indexing.ExtendsTransitive(t, s.table, IndexDays(s.table, s.rawHtml, days[1..], listing, id).table, id);
      }
    }
  }

  class Scraper {
    const newspaperId: string
    /** The class attribute `_db`, shared by every scraper. */
    const db: Database

    constructor(className: string, shared: Database)
      ensures newspaperId == Naming.NewspaperId(className) && db == shared
    {
      newspaperId := Naming.NewspaperId(className);
      db := shared;
    }

    /** Lines 113-114 (and 152-153): save after the `counter`-th of `total` items when it is a 50th or the last. */
    method SaveIfDue(counter: nat, total: nat)
      requires db.Valid() && counter > 0
      modifies db`disk, db`writes
      ensures db.Valid()
      ensures db.writes == old(db.writes) + (SaveCount(counter, total) - SaveCount(counter - 1, total))
      ensures SavesAfter(counter, total) ==> db.disk == db.articles
      ensures !SavesAfter(counter, total) ==> db.disk == old(db.disk)
    {
      if counter % 50 == 0 || counter == total {
        db.SaveArticles();
      }
    }

    /** The body of the day loop up to the save (lines 99-108). */
    method IndexOneDay(day: int, urls: seq<string>) returns (err: Option<Error>)
      requires db.Valid()
      modifies db`articles, db.rawHtml
      ensures db.Valid()
      ensures var s := IndexDay(old(db.articles), old(db.rawHtml.rel), day, urls, newspaperId);
        db.articles == s.table && db.rawHtml.rel == s.rawHtml && err == s.error
    {
      var stripped := Urls.StripAll(urls);
      var added := Indexing.NewUrls(db.articles.rows.Keys, stripped);
      ghost var relBefore := db.rawHtml.rel;
      err := db.RawHtmlAddIndex(added);
      RawHtml.InsertAllSucceeds(relBefore, added);
      if err.Some? {
        return;
      }
      MergeProperties(db.articles, stripped, newspaperId, day);
      db.articles := Merge(db.articles, stripped, newspaperId, day);
    }

    /**
     * `index_published_articles_per_day`: index the kept days of `dateFrom..dateTo` in order,
     * saving after every 50th day and after the last.
     */
    method IndexPublishedArticlesPerDay(dateFrom: int, dateTo: int, skipExisting: bool,
                                        listing: int -> (string, seq<string>)) returns (outcome: Scraping.Outcome)
      requires db.Valid()
      modifies db`articles, db`disk, db`writes, db.rawHtml
      ensures db.Valid()
      ensures var days := KeepDays(old(db.articles), Indexing.DayRange(dateFrom, dateTo), skipExisting);
        var s := IndexDays(old(db.articles), old(db.rawHtml.rel), days, listing, newspaperId);
        && db.articles == s.table && db.rawHtml.rel == s.rawHtml
        && outcome == (if days == [] then Scraping.NothingToDo else if s.error.Some? then Scraping.Raised(s.error.value) else Scraping.Completed)
        && (outcome == Scraping.Completed ==> db.disk == db.articles && db.writes == old(db.writes) + SaveCount(|days|, |days|))
      ensures outcome == Scraping.NothingToDo ==> db.disk == old(db.disk) && db.writes == old(db.writes)
    {
      var days := KeepDays(db.articles, Indexing.DayRange(dateFrom, dateTo), skipExisting);
      if days == [] {
        return Scraping.NothingToDo;
      }
      outcome := IndexAllDays(days, listing);
    }

    /** The day loop over the kept days. */
    method IndexAllDays(days: seq<int>, listing: int -> (string, seq<string>)) returns (outcome: Scraping.Outcome)
      requires db.Valid() && days != []
      modifies db`articles, db`disk, db`writes, db.rawHtml
      ensures db.Valid()
      ensures var s := IndexDays(old(db.articles), old(db.rawHtml.rel), days, listing, newspaperId);
        && db.articles == s.table && db.rawHtml.rel == s.rawHtml
        && outcome == (if s.error.Some? then Scraping.Raised(s.error.value) else Scraping.Completed)
        && (outcome == Scraping.Completed ==> db.disk == db.articles && db.writes == old(db.writes) + SaveCount(|days|, |days|))
    {
      ghost var goal := IndexDays(db.articles, db.rawHtml.rel, days, listing, newspaperId);
      var counter := 0;
      while counter < |days|
        invariant 0 <= counter <= |days|
        invariant db.Valid()
        invariant IndexDays(db.articles, db.rawHtml.rel, days[counter..], listing, newspaperId) == goal
        invariant db.writes == old(db.writes) + SaveCount(counter, |days|)
        invariant counter > 0 && SavesAfter(counter, |days|) ==> db.disk == db.articles
      {
        ghost var t, rel := db.articles, db.rawHtml.rel;
        var err := IndexOneDay(days[counter], listing(days[counter]).1);
        IndexDaysNext(t, rel, days, counter, listing, newspaperId, IndexDay(t, rel, days[counter], listing(days[counter]).1, newspaperId));
        if err.Some? {
          return Scraping.Raised(err.value);
        }
        counter := counter + 1;
        SaveIfDue(counter, |days|);
      }
      assert days[counter..] == [];
      return Scraping.Completed;
    }

    /** The body of the public loop for one URL, up to the save (lines 136-150). */
    method VisitPublic(url: string, site: Scraping.PublicSite, now: int)
      requires db.Valid()
      modifies db`articles, db.rawHtml
      ensures db.Valid()
      ensures (db.articles, db.rawHtml.rel) == Scraping.PublicStep(old(db.articles), old(db.rawHtml.rel), url, site, false, now)
    {
      var page := site.getRawHtml(url);
      if page.1 {
        db.RawHtmlAddBlob(url, page.0);
      }
      db.articles := SetCell(db.articles, url, PublicCol, Bool(page.1));
    }

    /**
     * `scrape_public_articles_raw_html`: this newspaper's rows with a null `Public`, in table
     * order; a public page is stored in `tblRawHTML`, and every row gets the flag. The pass is
     * the newer scraper's public pass without parsing.
     */
    method ScrapePublicArticlesRawHtml(site: Scraping.PublicSite, now: int) returns (outcome: Scraping.Outcome)
      requires db.Valid()
      modifies db`articles, db`disk, db`writes, db.rawHtml
      ensures db.Valid()
      ensures var todo := Scraping.ToScrape(old(db.articles), newspaperId, Scraping.PublicPass);
        && (db.articles, db.rawHtml.rel) == Scraping.PublicFold(old(db.articles), old(db.rawHtml.rel), todo, site, false, now)
        && outcome == (if todo == [] then Scraping.NothingToDo else Scraping.Completed)
        && (outcome == Scraping.Completed ==> db.disk == db.articles && db.writes == old(db.writes) + SaveCount(|todo|, |todo|))
      ensures outcome == Scraping.NothingToDo ==> db.disk == old(db.disk) && db.writes == old(db.writes)
    {
      var todo := Scraping.ToScrape(db.articles, newspaperId, Scraping.PublicPass);
      if todo == [] {
        return Scraping.NothingToDo;
      }
      VisitAllPublic(todo, site, now);
      return Scraping.Completed;
    }

    /** The public loop over the candidate list `todo`. */
    method VisitAllPublic(todo: seq<string>, site: Scraping.PublicSite, now: int)
      requires db.Valid() && todo != []
      modifies db`articles, db`disk, db`writes, db.rawHtml
      ensures db.Valid()
      ensures (db.articles, db.rawHtml.rel) == Scraping.PublicFold(old(db.articles), old(db.rawHtml.rel), todo, site, false, now)
      ensures db.disk == db.articles && db.writes == old(db.writes) + SaveCount(|todo|, |todo|)
    {
      ghost var goal := Scraping.PublicFold(db.articles, db.rawHtml.rel, todo, site, false, now);
      var counter := 0;
      while counter < |todo|
        invariant 0 <= counter <= |todo|
        invariant db.Valid()
        invariant Scraping.PublicFold(db.articles, db.rawHtml.rel, todo[counter..], site, false, now) == goal
        invariant db.writes == old(db.writes) + SaveCount(counter, |todo|)
        invariant counter > 0 && SavesAfter(counter, |todo|) ==> db.disk == db.articles
      {
        ghost var before := (db.articles, db.rawHtml.rel);
        VisitPublic(todo[counter], site, now);
        Scraping.PublicFoldNext(before.0, before.1, todo, counter, site, false, now, (db.articles, db.rawHtml.rel));
        counter := counter + 1;
        SaveIfDue(counter, |todo|);
      }
      assert todo[counter..] == [];
    }
  }
}

=== FILE: sueddeutsche.dfy ===
/**
 * The list post-processing of the Süddeutsche adapter's `_get_articles_by_date` and the
 * premium classification of its `_soup_get_html`. The archive pagination that collects
 * the raw URLs is network I/O and enters as an input: the URLs it collected, or `None`
 * when a page fetch returned nothing.
 */
module Sueddeutsche {
  import opened Frame
  import Urls

  /** The result of `_get_articles_by_date`: a pair of lists, or the bare `[]` of an aborted pagination. */
  datatype Listing = Pair(urls: seq<string>, pubDates: seq<Cell>) | Bare

  /** The regular expression advertorial URLs are recognised by; `.` matches any character but a newline. */
  const AdvertorialPattern: string := "advertorial.sueddeutsche.de"
  const ReducedPattern: string := "reduced=true"

  /** `pattern` (literal characters and the wildcard `.`) matches `s` at position `i`. */
  predicate MatchesAt(s: string, pattern: string, i: nat)
    requires i + |pattern| <= |s|
  {
    forall j :: 0 <= j < |pattern| ==> (if pattern[j] == '.' then s[i + j] != '\n' else s[i + j] == pattern[j])
  }

  /** `re.search(pattern, s)` succeeds. */
  predicate Search(s: string, pattern: string)
  {
    exists i: nat :: i + |pattern| <= |s| && MatchesAt(s, pattern, i)
  }

  /** The pattern matches more than the literal host name: any character may stand for a dot. */
  lemma AdvertorialWildcard()
    ensures Search("advertorialXsueddeutscheYde", AdvertorialPattern)
  {
    var s := "advertorialXsueddeutscheYde";
    forall j | 0 <= j < |AdvertorialPattern|
      ensures if AdvertorialPattern[j] == '.' then s[j] != '\n' else s[j] == AdvertorialPattern[j]
    {
    }
    assert MatchesAt(s, AdvertorialPattern, 0);
  }

  /** The host name itself matches. */
  lemma AdvertorialHostMatches()
    ensures Search(AdvertorialPattern, AdvertorialPattern)
  {
    assert MatchesAt(AdvertorialPattern, AdvertorialPattern, 0);
  }

  /** `pattern` occurs literally in `s` at position `i`. */
  predicate OccursAt(s: string, pattern: string, i: nat)
  {
    i + |pattern| <= |s| && s[i..i + |pattern|] == pattern
  }

  /** Without a wildcard, a pattern is found exactly when it occurs literally in the text. */
  lemma SearchLiteral(s: string, pattern: string)
    requires '.' !in pattern
    ensures Search(s, pattern) <==> exists i: nat :: OccursAt(s, pattern, i)
  {
    forall i: nat | i + |pattern| <= |s|
      ensures MatchesAt(s, pattern, i) <==> OccursAt(s, pattern, i)
    {
      if MatchesAt(s, pattern, i) {
        forall j | 0 <= j < |pattern| ensures s[i..i + |pattern|][j] == pattern[j] {
          assert pattern[j] != '.' by { assert pattern[j] in pattern; }
        }
      }
    }
  }

  /** An ordinary article URL is kept. */
  lemma ArticleUrlKept()
    ensures !Search("https://www.sueddeutsche.de/a", AdvertorialPattern)
  {
    var s := "https://www.sueddeutsche.de/a";
    forall i: nat | i + |AdvertorialPattern| <= |s|
      ensures !MatchesAt(s, AdvertorialPattern, i)
    {
      assert s[i] != AdvertorialPattern[0];
    }
  }

  predicate Distinct(s: seq<string>)
  {
    forall i, j :: 0 <= i < j < |s| ==> s[i] != s[j]
  }

  /** `list(set(urls))`, keeping the first occurrence of each URL. */
  function Dedupe(s: seq<string>): (r: seq<string>)
    ensures Distinct(r)
    ensures forall u :: u in r <==> u in s
    ensures |r| <= |s|
    ensures Distinct(s) ==> r == s
  {
    if s == [] then []
    else
      var d := Dedupe(s[..|s| - 1]);
      var x := s[|s| - 1];
      assert forall u :: u in s <==> u in s[..|s| - 1] || u == x by {
        assert s == s[..|s| - 1] + [x];
      }
      if x in d then d else d + [x]
  }

  /** Fewer URLs after deduplication exactly when some URL occurred twice: the warning's condition. */
  lemma {:induction false} DedupeShrinksIffDuplicates(s: seq<string>)
    ensures |Dedupe(s)| < |s| <==> !Distinct(s)
  {
    if s != [] {
      var init, x := s[..|s| - 1], s[|s| - 1];
      DedupeShrinksIffDuplicates(init);
      if x in init {
        var j :| 0 <= j < |init| && init[j] == x;
        assert s[j] == s[|s| - 1];
      } else if !Distinct(s) {
        var i, j :| 0 <= i < j < |s| && s[i] == s[j];
        assert j < |s| - 1;
        assert init[i] == init[j];
      }
    }
  }

  /** `[url for url in urls if not re.search(AdvertorialPattern, url)]` */
  function DropAdvertorials(urls: seq<string>): (r: seq<string>)
    ensures forall u :: u in r <==> u in urls && !Search(u, AdvertorialPattern)
    ensures Distinct(urls) ==> Distinct(r)
    ensures |r| <= |urls|
  {
    if urls == [] then []
    else
      var rest := DropAdvertorials(urls[1..]);
      assert forall u :: u in urls <==> u == urls[0] || u in urls[1..];
      if Search(urls[0], AdvertorialPattern) then rest else [urls[0]] + rest
  }

  /** The collected URLs without query strings, duplicates and advertorials. */
  function Listed(collected: seq<string>): (r: seq<string>)
    ensures Distinct(r)
    ensures forall i :: 0 <= i < |r| ==> '?' !in r[i] && !Search(r[i], AdvertorialPattern)
    ensures forall u :: u in r <==> u in Urls.StripAll(collected) && !Search(u, AdvertorialPattern)
  {
    var stripped := Urls.StripAll(collected);
    var r := DropAdvertorials(Dedupe(stripped));
    forall i | 0 <= i < |r| ensures '?' !in r[i] && !Search(r[i], AdvertorialPattern) {
      assert r[i] in r;
      var j :| 0 <= j < |stripped| && stripped[j] == r[i];
    }
    r
  }

  /**
   * The tail of `_get_articles_by_date(day)`: nothing unless `day` is the first of its month;
   * a bare empty list when pagination was aborted; otherwise the collected URLs without query
   * strings, duplicates and advertorials, each paired with midnight UTC of `day`.
   */
  function ArticlesByDate(day: int, dayOfMonth: int, collected: Option<seq<string>>): (r: Listing)
    ensures dayOfMonth != 1 ==> r == Pair([], [])
    ensures dayOfMonth == 1 && collected.None? ==> r == Bare
    ensures r.Pair? ==> |r.urls| == |r.pubDates| && Distinct(r.urls)
    ensures r.Pair? ==> forall i :: 0 <= i < |r.pubDates| ==> r.pubDates[i] == Time(Midnight(day))
    ensures r.Pair? ==> forall i :: 0 <= i < |r.urls| ==> '?' !in r.urls[i] && !Search(r.urls[i], AdvertorialPattern)
    ensures dayOfMonth == 1 && collected.Some? ==>
      r.Pair? && forall u :: u in r.urls <==> u in Urls.StripAll(collected.value) && !Search(u, AdvertorialPattern)
  {
    if dayOfMonth != 1 then Pair([], [])
    else if collected.None? then Bare
    else
      var urls := Listed(collected.value);
      Pair(urls, seq(|urls|, _ => Time(Midnight(day))))
  }

  /** Whether the duplicate warning is logged for the collected URLs. */
  function WarnsDuplicates(collected: seq<string>): (w: bool)
  {
    |Dedupe(Urls.StripAll(collected))| < |Urls.StripAll(collected)|
  }

  lemma WarnsIffDuplicates(collected: seq<string>)
    ensures WarnsDuplicates(collected) <==> !Distinct(Urls.StripAll(collected))
  {
    DedupeShrinksIffDuplicates(Urls.StripAll(collected));
  }

  /** A `requests` response: its status, whether it was redirected, its final URL and its text. */
  datatype Response = Response(status: int, redirected: bool, url: string, text: string)

  /** `bool(response)`: a response is truthy only when its status is below 400. */
  predicate Truthy(response: Option<Response>)
  {
    response.Some? && response.value.status < 400
  }

  /** The URL the classification looks at: the final URL after a redirect, else the requested one. */
  function EffectiveUrl(url: string, response: Response): string
  {
    if response.redirected then response.url else url
  }

  /**
   * `_soup_get_html(url)`: `(None, False)` without a (truthy) response, otherwise the page
   * text and whether the article is public, i.e. the effective URL does not carry `reduced=true`.
   */
  function SoupGetHtml(url: string, response: Option<Response>): (r: (Option<string>, bool))
    ensures !Truthy(response) ==> r == (None, false)
    ensures Truthy(response) ==> r.0 == Some(response.value.text)
    ensures r.1 <==> Truthy(response) && !Search(EffectiveUrl(url, response.value), ReducedPattern)
  {
    if !Truthy(response) then (None, false)
    else (Some(response.value.text), !Search(EffectiveUrl(url, response.value), ReducedPattern))
  }

  /** An error status is falsy: a 4xx or 5xx response yields no page even when it carries text. */
  lemma ErrorStatusFalsy(url: string, response: Response)
    ensures Truthy(Some(response)) <==> response.status < 400
    ensures response.status >= 400 ==> SoupGetHtml(url, Some(response)) == (None, false)
    ensures response.status < 400 ==> SoupGetHtml(url, Some(response)).0 == Some(response.text)
  {
  }

  /** A redirect to a URL with `reduced=true` marks the article premium, whatever was requested. */
  lemma RedirectDecides(url: string, target: string, text: string)
    requires Search(target, ReducedPattern)
    ensures !SoupGetHtml(url, Some(Response(200, true, target, text))).1
    ensures SoupGetHtml(url, Some(Response(404, false, url, text))) == (None, false)
  {
  }
}

=== FILE: urls.dfy ===
/** URL normalisation shared by every indexing path: `url.split('?')[0]`. */
module Urls {

  /** The part of `url` before its first '?', i.e. the URL without its query string. */
  function StripQuery(url: string): (r: string)
    ensures '?' !in r
    ensures r <= url
    ensures |r| < |url| ==> url[|r|] == '?'
    ensures '?' !in url ==> r == url
  {
    if url == [] || url[0] == '?' then [] else [url[0]] + StripQuery(url[1..])
  }

  /** Stripping twice is stripping once. */
  lemma StripQueryIdempotent(url: string)
    ensures StripQuery(StripQuery(url)) == StripQuery(url)
  {
  }

  /** `[url.split('?')[0] for url in urls]` */
  function StripAll(urls: seq<string>): (r: seq<string>)
    ensures |r| == |urls|
    ensures forall i :: 0 <= i < |urls| ==> r[i] == StripQuery(urls[i])
  {
    if urls == [] then [] else [StripQuery(urls[0])] + StripAll(urls[1..])
  }
}
